=== FILE: README.md ===
# Community board engine — a Dafny model

This project models the community board of the MSU ClubHub server: the
request handlers in `src/controllers/community-board-controller.ts` and the
three document shapes they work on (`CommunityPost`, `PostComment` and the
embedded `LikedBy` entry). The model covers slug construction, the News and
Post feeds, the full-post read, the like and unlike handlers for posts and
comments, soft deletion with its shared authorization check, comment
creation, and the depth-bounded comment tree.

The database is an immutable `Store` value (`models.dfy`). It holds users,
membership records, clubs with their moderators, posts keyed by id, the
unique index on `PostURI`, and comments keyed by id. Every handler is a pure
function or method over that store. A mutating handler returns
`Step(store', reply)`: the store after the request and the reply the client
saw. The two are kept separate on purpose. `LikeComment` and `UnLikeComment`
send an error reply and then still run their `$push`/`$pull`, so the store
can change even when the reply is an error.

Inputs that the server takes from the environment are parameters here:
- the clock (`now`, an integer timestamp);
- the base-36 digits of the `Math.random()` fraction, which enter the stamp text the slug suffix is cut from;
- the id a new document receives;
- the decoded access token (`Actor`).

Files, one module each:
- `common.dfy`: id types, `Option`, `Result`.
- `ledger.dfy`: the like ledger (`find`, `$push`, `$pull`).
- `models.dfy`: documents, store, index invariant, errors.
- `slug.dfy`: `SanitizeString` and the PostURI.
- `feed.dfy`: `formatPost`, `fetchClubPosts`, `FetchNews`, `FetchPosts`, `FetchFullPost`.
- `posts.dfy`: `CreatePost`.
- `likes.dfy`: the four like handlers.
- `moderation.dfy`: `DeletePost`, `DeleteComment`, the authorization check.
- `comments.dfy`: `AddComment`, `FetchCommentTree`.
- `board.dfy`: properties that relate several handlers.

## Where the code departs from its evident intent

The model follows the code in each of these places:
- Likes are not idempotent. `LikePost` appends with no duplicate check (`Likes.LikePostTwiceCountsTwice`).
- `LikeComment` detects a duplicate and replies "already liked", but it has no `return`. The entry is still appended (`Likes.LikeCommentTwiceDuplicates`).
- `UnLikeComment` likewise runs its `$pull` after the "not liked" reply. That pull removes nothing.
- `UnLikePost` and `UnLikeComment` accept soft-deleted targets. So do `LikeComment` and `AddComment`. Only `LikePost` and `FetchFullPost` reject them.
- `AddComment` only checks that the member record exists. It does not check membership in the post's club. The comment's club comes from the member record, not from the post.
- `AddComment` pushes the reply link into the parent before it saves the new comment. If the save fails, the parent keeps an id that resolves to nothing (`Comments.EmptyReplyLeavesDanglingId`).
- A `replyingTo` that does not exist changes nothing in the store, yet the comment is still saved with `isTopLevel = false`. No fetch can reach that comment (`Board.OrphanReplyIsUnreachable`).
- `FetchCommentTree` has no sort and no `isDeleted` filter. The top-level page is any ten matching comments.
- Feed paging takes `lstFetchedDate` as an exclusive bound and the sort has no tie-break. When a client pages on with the last post's `createdAt`, posts that share the `createdAt` of a full page's last post and missed that page never appear on a later page (`Feed.TieAtPageEdgeIsSkipped`). With distinct timestamps paging loses nothing (`Feed.NextPageContinues`).
- `CreatePost` checks neither membership nor that the club exists.
- The slug suffix is meant to be random, but it is cut from the clock alone. `(Date.now() + Math.random()).toString(36)` has eight integer digits between 1972 and 2059, so the first seven are `Date.now()` divided by 36 (`Slug.SuffixIgnoresFraction`). Two posts whose titles sanitize alike and that arrive in the same 36 ms window (equal `Date.now() / 36`) get the same slug, and the second is rejected by the unique index (`Posts.SameWindowCollides` proves this for equal titles).

## Model

| member | source | states |
|---|---|---|
| `Slug.Sanitize` | src/controllers/community-board-controller.ts:16-18 | the sanitized string contains only `[A-Za-z0-9_-]`, no whitespace and never two consecutive `_`, and it keeps every ASCII letter, digit and `-` of the input, in order |
| `Slug.SanitizeTrims` | src/controllers/community-board-controller.ts:16-18 | the input is trimmed first: whitespace added before or after a string does not change its sanitized form |
| `Slug.SanitizeFixesClean` | src/controllers/community-board-controller.ts:16-18 | text made only of `[A-Za-z0-9_-]` with no two consecutive `_` comes out unchanged |
| `Slug.SanitizeJoinsWords` | src/controllers/community-board-controller.ts:16-18 | two words of letters, digits and `-` separated by any non-empty run of whitespace come out joined by exactly one `_` |
| `Slug.SanitizeIdempotent` | src/controllers/community-board-controller.ts:16-18 | sanitizing a sanitized string returns it unchanged |
| `Slug.Suffix` | src/controllers/community-board-controller.ts:81 | the slug suffix is at most 7 characters, all ASCII letters or digits |
| `Slug.Digit36` | src/controllers/community-board-controller.ts:81 | a digit below 36 is written as `0`-`9` or lower-case `a`-`z`, and reading the character back gives the digit |
| `Slug.Base36` | src/controllers/community-board-controller.ts:81 | `toString(36)` of a non-negative integer is a non-empty string of `0`-`9` and lower-case `a`-`z`, starting with `0` only for zero |
| `Slug.Base36Value` | src/controllers/community-board-controller.ts:81 | the numeral `Base36` writes denotes exactly the number it was given |
| `Slug.Base36Length` | src/controllers/community-board-controller.ts:81 | a number in [36^k, 36^(k+1)) has exactly k + 1 base-36 digits |
| `Slug.SuffixIgnoresFraction` | src/controllers/community-board-controller.ts:81 | for clock readings in [36^7, 36^8) the suffix is the base-36 text of the reading divided by 36, whatever fraction `Math.random()` adds, so the suffix read as a base-36 numeral is that quotient |
| `Slug.MakeSlug` | src/controllers/community-board-controller.ts:82 | the PostURI contains only `[A-Za-z0-9_-]` and no whitespace |
| `Slug.SlugRoundTrip` | src/controllers/community-board-controller.ts:81-82 | splitting the PostURI at its last `-` gives back the sanitized title and the suffix |
| `Slug.SlugInjective` | src/controllers/community-board-controller.ts:81-82 | two equal PostURIs come from equal sanitized titles and equal suffixes |
| `Posts.NewPost` | src/models/communitypost.ts:22-33 | a new post has no flair, no images beyond the uploads, an empty ledger, is not deleted, and has `Body` only when the request's body is non-empty |
| `Posts.CreatePost` | src/controllers/community-board-controller.ts:75-103 | a bad `Type` or empty `Title` fails validation, a taken PostURI or id fails the unique index, otherwise exactly one post is inserted and indexed under the returned slug, which is built from the title and the clock stamp; the index stays consistent |
| `Posts.SameWindowCollides` | src/controllers/community-board-controller.ts:81-97 | a second post with the same title as an accepted one that arrives in the same 36 ms window is rejected with `DuplicateKey`, whatever the random fractions were |
| `Posts.DuplicateSlugRejected` | src/models/communitypost.ts:25 | creating a post whose slug an existing post already has is rejected and changes nothing |
| `Posts.ValidMeansUniqueUris` | src/models/communitypost.ts:25 | in a consistent store, no two posts share a PostURI |
| `Models.ParseType` | src/models/communitypost.ts:26 | the type validator accepts exactly `"Post"` and `"News"`, and the accepted value names the string |
| `Models.InsertPostKeepsValid` | src/models/communitypost.ts:25 | inserting a post under a fresh id and an unused URI keeps the PostURI index consistent |
| `Ledger.Find` | src/controllers/community-board-controller.ts:119 | `find` by user returns an entry iff some entry has that user, and the entry it returns belongs to that user |
| `Ledger.Push` | src/controllers/community-board-controller.ts:245-247 | `$push` keeps the old entries as a prefix and adds one entry for the user with the schema's default `LikedOn` |
| `Ledger.Pull` | src/controllers/community-board-controller.ts:270-272 | `$pull` leaves no entry of the user, shortens the list by that user's entry count and keeps every other entry |
| `Ledger.PullKeepsOthers` | src/controllers/community-board-controller.ts:270-272 | every other user's entries survive a pull in their original order |
| `Ledger.PullUndoesPush` | src/models/likedby.ts:4-12 | because entries are identified only by `User`, pulling a user just pushed restores a ledger in which that user had no entry |
| `Ledger.PullAppend` | src/controllers/community-board-controller.ts:270-272 | `$pull` works entry by entry: pulling from a concatenation is the concatenation of the pulls |
| `Ledger.PullSingle` | src/controllers/community-board-controller.ts:270-272 | pulling a user from a one-entry ledger empties it when the entry is that user's and leaves it alone otherwise |
| `Ledger.PullIdempotent` | src/controllers/community-board-controller.ts:326-328 | a second pull of the same user changes nothing |
| `Feed.FormatPost` | src/controllers/community-board-controller.ts:105-122 | `Likes` is the ledger length, `IsLiked` holds iff some entry's user is the current user, other fields are copied |
| `Feed.SelectFeed` | src/controllers/community-board-controller.ts:124-131 | at most 5 distinct posts of the club and type, not deleted, older than `before`, by the author when one is given, newest first; a short page holds every match and no omitted match is newer than a returned post |
| `Feed.NextPageContinues` | src/controllers/community-board-controller.ts:124-131 | when matching posts have distinct `createdAt`, a full page and the query with `before` set to its last post's `createdAt` split the matches: each is on the page or matches the next query, never both |
| `Feed.TieAtPageEdgeIsSkipped` | src/controllers/community-board-controller.ts:124-131 | in a store of six posts with distinct PostURIs and one shared `createdAt`, a full page of five of them is admissible and the sixth tied post is neither on it nor matched by the next page's query |
| `Feed.FetchClubPosts` | src/controllers/community-board-controller.ts:124-137 | the page is a feed page as above and each entry is `formatPost` of its stored post |
| `Feed.FetchNews` | src/controllers/community-board-controller.ts:139-148 | the News feed always answers, with no membership check, with a feed page of the club's News posts older than the date, each formatted for the reader |
| `Feed.FetchPosts` | src/controllers/community-board-controller.ts:150-164 | a non-member of the club gets `NotAMember` and no posts; a member gets the Post feed page |
| `Feed.FetchFullPost` | src/controllers/community-board-controller.ts:207-223 | the post is found iff a non-deleted post has the URI; the reply is that post formatted for the reader, otherwise `PostNotFound` |
| `Likes.LikePost` | src/controllers/community-board-controller.ts:225-253 | missing user, missing or deleted post, and a non-member on a `Post`-type post are rejected with the store unchanged; otherwise exactly one entry for the user is appended and the count is old + 1 |
| `Likes.UnLikePost` | src/controllers/community-board-controller.ts:255-278 | missing user, missing post and "not liked" are rejected with the store unchanged; otherwise the ledger becomes the `$pull` of the user, so every entry of the user goes, the other entries keep their relative order, and the new length is returned |
| `Likes.LikeComment` | src/controllers/community-board-controller.ts:280-309 | missing user, missing comment and non-members are rejected unchanged; a member's like is always appended, and a repeat is answered `AlreadyLiked` |
| `Likes.UnLikeComment` | src/controllers/community-board-controller.ts:311-334 | missing user or comment is rejected unchanged; otherwise the ledger becomes the `$pull` of the user, so the other entries keep their relative order; a user without an entry gets `NotLiked` and an unchanged ledger |
| `Likes.LikePostTwiceCountsTwice` | src/controllers/community-board-controller.ts:245-248 | two accepted likes by one user raise the count by two |
| `Likes.LikeThenUnlikePost` | src/controllers/community-board-controller.ts:225-278 | like then unlike restores the post's ledger and reports the original count when the user had not liked before |
| `Likes.LikeThenUnlikeComment` | src/controllers/community-board-controller.ts:280-334 | like then unlike restores the comment's ledger and reports the original count when the user had not liked before |
| `Likes.UnlikeWithoutLike` | src/controllers/community-board-controller.ts:266-268 | unliking a post the user never liked is rejected and changes nothing |
| `Likes.LikeCommentTwiceDuplicates` | src/controllers/community-board-controller.ts:298-304 | a repeated comment like is answered `AlreadyLiked` but still adds an entry |
| `Moderation.DeletePost` | src/controllers/community-board-controller.ts:166-205 | an unknown URI gives `PostNotFound`; otherwise the delete succeeds iff the actor is Faculty, Admin, the author or a moderator of an existing club; success changes only `isDeleted` (and `updatedAt` on first delete), refusal changes nothing |
| `Moderation.DeleteComment` | src/controllers/community-board-controller.ts:384-412 | the same authorization and soft delete for comments, with `CommentNotFound` for an unknown id |
| `Moderation.DeletePostMatrix` | src/controllers/community-board-controller.ts:178-182 | Faculty, Admin, the author and a moderator may delete a post; an actor that is none of these is refused |
| `Moderation.DeletePostIdempotent` | src/controllers/community-board-controller.ts:183-194 | repeating an accepted post delete leaves the store as the first delete left it |
| `Moderation.DeleteCommentIdempotent` | src/controllers/community-board-controller.ts:402-403 | repeating an accepted comment delete leaves the store as the first delete left it |
| `Comments.NewComment` | src/models/comment.ts:20-29 | a new comment has the member's club, empty `Replies` and ledger, is not deleted, and is top-level iff `replyingTo` is falsy (absent or the empty string) |
| `Comments.LinkReply` | src/controllers/community-board-controller.ts:360-361 | the new id is appended to the end of an existing parent's `Replies`; a missing parent leaves every comment as it was |
| `Comments.AddComment` | src/controllers/community-board-controller.ts:337-382 | a missing post or member record is rejected unchanged; otherwise an existing parent gains the new id at the end of `Replies` and a new `updatedAt` and nothing else, and the comment is stored iff its body is non-empty and its id is unused, with the member's club, empty replies and ledger, and `createdAt` and `updatedAt` equal to the request time; no other comment changes |
| `Comments.EmptyReplyLeavesDanglingId` | src/controllers/community-board-controller.ts:360-364 | a reply with an empty body is not saved but its id stays in the parent's `Replies` |
| `Comments.ExpandListSound` | src/controllers/community-board-controller.ts:418-435 | populating a reply list gives, in stored order, exactly the ids that resolve, each expanded to the requested depth with bare ids below |
| `Comments.ExpandNodeSound` | src/controllers/community-board-controller.ts:418-435 | populating one comment yields it as stored with its replies expanded to the requested depth |
| `Comments.WellExpandedUnique` | src/controllers/community-board-controller.ts:418-435 | a tree with that shape is exactly the populated comment, so the description and the expansion agree |
| `Comments.SelectTopLevel` | src/controllers/community-board-controller.ts:442-446 | the top-level query returns min(10, matches) distinct comments of the post, top-level and older than the date, with no order promised |
| `Comments.FetchCommentTree` | src/controllers/community-board-controller.ts:414-453 | with a parent: its resolvable replies in stored order, three populated levels; a missing parent gives no body; without one: a top-level page, each comment populated three levels below it |
| `Board.DeletedPostLeavesFeed` | src/controllers/community-board-controller.ts:126 | after a soft delete the post matches no feed query and the full-post read says `PostNotFound`, while comments are untouched |
| `Board.DeletedCommentStaysInTree` | src/controllers/community-board-controller.ts:442-446 | a soft-deleted comment keeps its place in every thread and in the top-level candidates |
| `Board.ReplyAppearsLast` | src/controllers/community-board-controller.ts:360-361 | a saved reply appears last among its parent's resolvable replies |
| `Board.CreatedPostIsReadable` | src/controllers/community-board-controller.ts:82-98 | a created post can be read back by the returned slug with its title, author, club and no likes |
| `Board.OrphanReplyIsUnreachable` | src/controllers/community-board-controller.ts:360-363 | a reply to a missing parent is stored as not top-level and no comment lists it |

## Left out

- Image uploads: multer storage, `fileFilter`, directory creation, the `fileIdx` counter and `fs.unlink` cleanup are not modelled. Image names are opaque strings.
- Feed.FormatPost: image names are returned as stored. The `SERVER_URL` prefix that `formatPost` puts in front of each name depends on the environment.
- The clock, `Math.random()` and document-id generation are not modelled. The clock reading, the digits of the random fraction and new ids are parameters.
- Posts.CreatePost: the integer part of `Date.now() + Math.random()` is taken to be `Date.now()`. Double-precision rounding can carry a fraction very close to 1 into the next millisecond; that is not modelled.
- Token handling is not modelled. The actor is the decoded token. Faculty tokens carry `Role` and no `club`, which makes the source's check throw; the model takes any `role` string as given.
- `populate` of Author, Flair and Club is the identity on ids. Only the `Replies` expansion in `FetchCommentTree` is modelled.
- Concurrency and atomicity are not modelled. Each handler is one sequential transition.
- Membership is the relation of member records (club, user). The field-name mismatch between the member schema (`UserID`) and the queries (`User`) is not modelled.
- Replies are collapsed to typed errors. The HTTP status codes (406 vs 404 for the same refusal) and the requests that never get a reply (empty `catch` blocks) are not modelled.
- Cast failures are not modelled: malformed ids and an unparsable `lstFetchedDate` would fail with a 500.
- The author filter of `fetchClubPosts` is modelled, though no caller passes one.
- `updatedAt` is set to the handler's single `now` on every write. In `AddComment` the parent update and the insert would in fact get two slightly different times.
- `EditPost` has an empty body and is not modelled.
- Account, faculty and club handlers, routes, app wiring and the other models are not part of this model.

=== FILE: board.dfy ===
/** Properties that relate several board handlers: what a soft delete does
    to the read paths, how a new reply shows up in its thread, and that a
    created post can be read back by its slug. */
module Board {
  import opened Common
  import opened Ledger
  import opened Models
  import opened Slug
  import opened Feed
  import opened Posts
  import opened Moderation
  import opened Comments

  /** Whether an id resolves depends only on the key set. */
  lemma {:induction false} PresentAgree(cs: map<CommentId, PostComment>, cs': map<CommentId, PostComment>, ids: seq<CommentId>)
    requires forall i :: 0 <= i < |ids| ==> (ids[i] in cs <==> ids[i] in cs')
    ensures Present(cs, ids) == Present(cs', ids)
  {
    if |ids| > 0 {
      PresentAgree(cs, cs', ids[1..]);
    }
  }

  lemma {:induction false} PresentAppend(cs: map<CommentId, PostComment>, a: seq<CommentId>, b: seq<CommentId>)
    ensures Present(cs, a + b) == Present(cs, a) + Present(cs, b)
  {
    if |a| == 0 {
      assert a + b == b;
    } else {
      assert (a + b)[0] == a[0];
      assert (a + b)[1..] == a[1..] + b;
      PresentAppend(cs, a[1..], b);
    }
  }

  /** A soft-deleted post drops out of every feed and out of the full-post
      read path, while its comments are untouched. */
  lemma DeletedPostLeavesFeed(s: Store, uri: string, actor: Actor, now: int, q: FeedQuery, userId: UserId)
    requires Valid(s)
    requires DeletePost(s, uri, actor, now).reply.Ok?
    ensures var s' := DeletePost(s, uri, actor, now).store;
            && !Matches(s'.posts[s.postUris[uri]], q)
            && FetchFullPost(s', uri, userId) == Err(PostNotFound)
            && s'.comments == s.comments
  {
    var s' := DeletePost(s, uri, actor, now).store;
    var id := s.postUris[uri];
    assert s'.postUris == s.postUris;
    assert s'.postUris[uri] == id;
  }

  /** A soft-deleted comment keeps its place in every thread: the top-level
      candidates and the resolvable reply ids are the same as before. */
  lemma DeletedCommentStaysInTree(s: Store, commentId: CommentId, actor: Actor, now: int,
                                  postId: PostId, before: int, ids: seq<CommentId>, depth: nat)
    requires DeleteComment(s, commentId, actor, now).reply.Ok?
    ensures var cs' := DeleteComment(s, commentId, actor, now).store.comments;
            && TopLevelIds(cs', postId, before) == TopLevelIds(s.comments, postId, before)
            && NodeIds(ExpandList(cs', ids, depth)) == NodeIds(ExpandList(s.comments, ids, depth))
            && cs'[commentId].isDeleted
  {
    var cs := s.comments;
    var cs' := DeleteComment(s, commentId, actor, now).store.comments;
    assert forall id :: id in cs ==> cs'[id].post == cs[id].post && cs'[id].createdAt == cs[id].createdAt
                                     && cs'[id].isTopLevel == cs[id].isTopLevel;
    assert TopLevelIds(cs', postId, before) == TopLevelIds(cs, postId, before);
    ExpandListSound(cs, ids, depth);
    ExpandListSound(cs', ids, depth);
    PresentAgree(cs, cs', ids);
  }

  /** A reply that is saved appears last among its parent's resolvable
      replies, after the ones that were there before. */
  lemma ReplyAppearsLast(s: Store, postId: PostId, memberId: MemberId, parent: CommentId, body: string,
                         newId: CommentId, now: int)
    requires parent in s.comments && newId !in s.comments[parent].replies
    requires AddComment(s, postId, memberId, Some(parent), body, newId, now).reply.Ok?
    ensures var cs' := AddComment(s, postId, memberId, Some(parent), body, newId, now).store.comments;
            Present(cs', cs'[parent].replies) == Present(s.comments, s.comments[parent].replies) + [newId]
  {
    var cs := s.comments;
    var cs' := AddComment(s, postId, memberId, Some(parent), body, newId, now).store.comments;
    var earlier := cs[parent].replies;
    assert cs'[parent].replies == earlier + [newId];
    PresentAppend(cs', earlier, [newId]);
    PresentAgree(cs, cs', earlier);
    assert Present(cs', [newId]) == [newId];
  }

  /** A created post can be read back by the slug `CreatePost` returned:
      it has the requested title, no likes, and no like by anyone. */
  lemma CreatedPostIsReadable(s: Store, newId: PostId, memberId: MemberId, clubId: ClubId, kind: string,
                              title: string, body: string, images: seq<string>, fraction: string, now: nat,
                              reader: UserId)
    requires Valid(s) && Validates(kind, title) && newId !in s.posts
    requires MakeSlug(title, StampText(now, fraction)) !in s.postUris
    ensures var r := CreatePost(s, newId, memberId, clubId, kind, title, body, images, fraction, now);
            var v := FetchFullPost(r.store, r.reply.value, reader);
            && v.Ok?
            && v.value.id == newId && v.value.title == title && v.value.postUrl == MakeSlug(title, StampText(now, fraction))
            && v.value.likes == 0 && !v.value.isLiked && v.value.author == memberId && v.value.club == clubId
  {
    var r := CreatePost(s, newId, memberId, clubId, kind, title, body, images, fraction, now);
    var uri := MakeSlug(title, StampText(now, fraction));
    assert r.store.postUris[uri] == newId;
    assert !r.store.posts[newId].isDeleted;
  }

  /** A reply to a parent that does not exist is saved with
      `isTopLevel = false` while no comment lists it: neither branch of
      `FetchCommentTree` can reach it. */
  lemma OrphanReplyIsUnreachable(s: Store, postId: PostId, memberId: MemberId, parent: CommentId, body: string,
                                 newId: CommentId, now: int, anyPost: PostId, before: int)
    requires parent !in s.comments
    requires forall c :: c in s.comments ==> newId !in s.comments[c].replies
    requires AddComment(s, postId, memberId, Some(parent), body, newId, now).reply.Ok?
    ensures var cs' := AddComment(s, postId, memberId, Some(parent), body, newId, now).store.comments;
            && newId in cs' && !cs'[newId].isTopLevel
            && newId !in TopLevelIds(cs', anyPost, before)
            && forall c :: c in cs' ==> newId !in cs'[c].replies
  {
  }
}

=== FILE: comments.dfy ===
/** Comments: `AddComment`, which links a new comment into its parent's
    `Replies`, and `FetchCommentTree`, which returns comments with their
    replies expanded to a fixed depth. */
module Comments {
  import opened Common
  import opened Ledger
  import opened Models

  /** Top-level page size of `FetchCommentTree` (`.limit(10)`). */
  const TopLevelPage: nat := 10

  /** The comment document `AddComment` builds before saving it.
      `replyingTo` is `None` for every falsy value the handler can receive
      (missing, `null` or the empty string): the handler only tests
      truthiness, so an empty id makes a top-level comment. */
  function NewComment(s: Store, postId: PostId, memberId: MemberId, replyingTo: Option<CommentId>,
                      body: string, now: int): (c: PostComment)
    requires memberId in s.members
    ensures c.club == s.members[memberId].club && c.author == memberId && c.post == postId
    ensures c.replies == [] && c.likedBy == [] && !c.isDeleted && c.body == body
    ensures c.isTopLevel <==> replyingTo.None?
    ensures c.createdAt == now && c.updatedAt == now
  {
    PostComment(s.members[memberId].club, memberId, postId, [], replyingTo.None?, body, now, now, [], false)
  }

  /** `findByIdAndUpdate(replyingTo, { $push: { Replies: newId } })`, run
      only when `replyingTo` is truthy (`None` stands for every falsy value,
      the empty string included): a missing parent matches nothing and
      nothing changes. */
  function LinkReply(cs: map<CommentId, PostComment>, replyingTo: Option<CommentId>, newId: CommentId, now: int)
    : (cs': map<CommentId, PostComment>)
    ensures cs'.Keys == cs.Keys
    ensures forall id :: id in cs && (replyingTo != Some(id)) ==> cs'[id] == cs[id]
    ensures replyingTo.Some? && replyingTo.value in cs ==>
              cs'[replyingTo.value] == cs[replyingTo.value].(replies := cs[replyingTo.value].replies + [newId], updatedAt := now)
  {
    match replyingTo
    case None => cs
    case Some(p) =>
      if p in cs then cs[p := cs[p].(replies := cs[p].replies + [newId], updatedAt := now)] else cs
  }

  /** `AddComment`. The post must exist (soft-deleted posts are accepted) and
      the member record must exist; the comment's club is the member's club,
      not the post's. The reply link is pushed into the parent before the new
      comment is saved, so a save that fails (an empty body fails the
      `required` validator, a taken id the unique `_id` index) leaves the link
      in place. */
  function AddComment(s: Store, postId: PostId, memberId: MemberId, replyingTo: Option<CommentId>,
                      body: string, newId: CommentId, now: int): (r: Step<(CommentId, PostComment)>)
    ensures postId !in s.posts ==> r == Step(s, Err(PostNotFound))
    ensures postId in s.posts && memberId !in s.members ==> r == Step(s, Err(NotAMember))
    ensures postId in s.posts && memberId in s.members ==>
      && r.store.(comments := s.comments) == s
      && (r.reply.Ok? <==> body != "" && newId !in s.comments)
      && (body == "" ==> r.reply == Err(ValidationFailed))
      && (body != "" && newId in s.comments ==> r.reply == Err(DuplicateKey))
      && (r.reply.Ok? ==> r.store.comments.Keys == s.comments.Keys + {newId})
      && (r.reply.Err? ==> r.store.comments.Keys == s.comments.Keys)
      && (r.reply.Ok? ==>
            var c := r.reply.value.1;
            && r.reply.value.0 == newId
            && r.store.comments[newId] == c
            && c.club == s.members[memberId].club && c.author == memberId && c.post == postId
            && c.replies == [] && c.likedBy == [] && !c.isDeleted && c.body == body
            && c.createdAt == now && c.updatedAt == now
            && (c.isTopLevel <==> replyingTo.None?))
      && (forall id :: id in s.comments && replyingTo != Some(id) ==> r.store.comments[id] == s.comments[id])
      && (replyingTo.Some? && replyingTo.value in s.comments ==>
            r.store.comments[replyingTo.value]
              == s.comments[replyingTo.value].(replies := s.comments[replyingTo.value].replies + [newId], updatedAt := now))
  {
    if postId !in s.posts then Step(s, Err(PostNotFound))
    else if memberId !in s.members then Step(s, Err(NotAMember))
    else
      var c := NewComment(s, postId, memberId, replyingTo, body, now);
      var linked := LinkReply(s.comments, replyingTo, newId, now);
      if body == "" then Step(s.(comments := linked), Err(ValidationFailed))
      else if newId in linked then Step(s.(comments := linked), Err(DuplicateKey))
      else Step(s.(comments := linked[newId := c]), Ok((newId, c)))
  }

  /** A reply whose save fails leaves its id in the parent's `Replies` with
      no comment stored under it. */
  lemma EmptyReplyLeavesDanglingId(s: Store, postId: PostId, memberId: MemberId, parent: CommentId,
                                   newId: CommentId, now: int)
    requires postId in s.posts && memberId in s.members && parent in s.comments && newId !in s.comments
    ensures var r := AddComment(s, postId, memberId, Some(parent), "", newId, now);
            && r.reply == Err(ValidationFailed)
            && newId !in r.store.comments
            && newId in r.store.comments[parent].replies
  {
    var r := AddComment(s, postId, memberId, Some(parent), "", newId, now);
    var before := s.comments[parent].replies;
    assert r.store.comments[parent].replies == before + [newId];
    assert (before + [newId])[|before|] == newId;
  }

  // ---------------------------------------------------------------------------
  // Comment tree

  /** A comment's `Replies` as `FetchCommentTree` returns it: populated
      comments down to the last level the populate path names, bare ids
      below that. */
  datatype Replies = Ids(ids: seq<CommentId>) | Nodes(nodes: seq<Node>)
  datatype Node = Node(id: CommentId, comment: PostComment, replies: Replies)

  function NodeIds(ns: seq<Node>): (ids: seq<CommentId>)
    ensures |ids| == |ns| && forall i :: 0 <= i < |ns| ==> ids[i] == ns[i].id
  {
    seq(|ns|, i requires 0 <= i < |ns| => ns[i].id)
  }

  /** The ids of `ids` that name stored comments, in order. Populate drops
      ids that do not resolve. */
  function Present(cs: map<CommentId, PostComment>, ids: seq<CommentId>): (r: seq<CommentId>)
    ensures |r| <= |ids|
    ensures forall i :: 0 <= i < |r| ==> r[i] in cs && r[i] in ids
    ensures forall i :: 0 <= i < |ids| && ids[i] in cs ==> ids[i] in r
  {
    if |ids| == 0 then []
    else
      var rest := Present(cs, ids[1..]);
      assert forall i :: 1 <= i < |ids| ==> ids[i] == ids[1..][i - 1];
      if ids[0] in cs then [ids[0]] + rest else rest
  }

  /** Populates `ids`, each resolved comment expanded `depth` more levels. */
  function ExpandList(cs: map<CommentId, PostComment>, ids: seq<CommentId>, depth: nat): (ns: seq<Node>)
    decreases depth, |ids|
  {
    if |ids| == 0 then []
    else if ids[0] in cs then [ExpandNode(cs, ids[0], depth)] + ExpandList(cs, ids[1..], depth)
    else ExpandList(cs, ids[1..], depth)
  }

  /** The comment `id`, with its `Replies` populated `depth` levels deep; at
      depth 0 they stay bare ids. */
  function ExpandNode(cs: map<CommentId, PostComment>, id: CommentId, depth: nat): (n: Node)
    requires id in cs
    decreases depth, 0
  {
    Node(id, cs[id], if depth == 0 then Ids(cs[id].replies) else Nodes(ExpandList(cs, cs[id].replies, depth - 1)))
  }

  /** `n` is comment `n.id` as stored, with exactly its resolvable replies,
      in stored order, populated `depth` levels below it and bare ids below
      that. */
  ghost predicate WellExpanded(cs: map<CommentId, PostComment>, n: Node, depth: nat)
    decreases n
  {
    && n.id in cs
    && n.comment == cs[n.id]
    && (depth == 0 ==> n.replies == Ids(cs[n.id].replies))
    && (depth > 0 ==>
          && n.replies.Nodes?
          && NodeIds(n.replies.nodes) == Present(cs, cs[n.id].replies)
          && forall k :: 0 <= k < |n.replies.nodes| ==> WellExpanded(cs, n.replies.nodes[k], depth - 1))
  }

  /** Expansion produces well-expanded nodes for exactly the resolvable ids, in order. */
  lemma {:induction false} ExpandListSound(cs: map<CommentId, PostComment>, ids: seq<CommentId>, depth: nat)
    ensures NodeIds(ExpandList(cs, ids, depth)) == Present(cs, ids)
    ensures forall k :: 0 <= k < |ExpandList(cs, ids, depth)| ==> WellExpanded(cs, ExpandList(cs, ids, depth)[k], depth)
    decreases depth, |ids|
  {
    if |ids| > 0 {
      ExpandListSound(cs, ids[1..], depth);
      if ids[0] in cs {
        ExpandNodeSound(cs, ids[0], depth);
        var ns := ExpandList(cs, ids, depth);
        assert ns == [ExpandNode(cs, ids[0], depth)] + ExpandList(cs, ids[1..], depth);
        assert NodeIds(ns) == [ids[0]] + NodeIds(ExpandList(cs, ids[1..], depth));
      }
    }
  }

  lemma {:induction false} ExpandNodeSound(cs: map<CommentId, PostComment>, id: CommentId, depth: nat)
    requires id in cs
    ensures WellExpanded(cs, ExpandNode(cs, id, depth), depth)
    decreases depth, 0
  {
    if depth > 0 {
      ExpandListSound(cs, cs[id].replies, depth - 1);
    }
  }

  /** A well-expanded node is determined by its id: it is the expansion of that id. */
  lemma {:induction false} WellExpandedUnique(cs: map<CommentId, PostComment>, n: Node, depth: nat)
    requires WellExpanded(cs, n, depth)
    ensures n == ExpandNode(cs, n.id, depth)
    decreases n
  {
    if depth > 0 {
      var ns := n.replies.nodes;
      forall k | 0 <= k < |ns|
        ensures ns[k] == ExpandNode(cs, ns[k].id, depth - 1)
      {
        WellExpandedUnique(cs, ns[k], depth - 1);
      }
      ListFromIds(cs, ns, cs[n.id].replies, depth - 1);
    }
  }

  lemma {:induction false} ListFromIds(cs: map<CommentId, PostComment>, ns: seq<Node>, ids: seq<CommentId>, depth: nat)
    requires NodeIds(ns) == Present(cs, ids)
    requires forall k :: 0 <= k < |ns| ==> ns[k].id in cs && ns[k] == ExpandNode(cs, ns[k].id, depth)
    ensures ns == ExpandList(cs, ids, depth)
  {
    if |ids| == 0 {
      assert |NodeIds(ns)| == 0;
    } else {
      var tail := Present(cs, ids[1..]);
      if ids[0] in cs {
        assert Present(cs, ids) == [ids[0]] + tail;
        assert ns[0].id == ids[0];
        assert NodeIds(ns[1..]) == tail by {
          assert forall i :: 0 <= i < |ns| - 1 ==> NodeIds(ns[1..])[i] == NodeIds(ns)[i + 1];
        }
        ListFromIds(cs, ns[1..], ids[1..], depth);
        assert ExpandList(cs, ids, depth) == [ExpandNode(cs, ids[0], depth)] + ExpandList(cs, ids[1..], depth);
        assert ns == [ns[0]] + ns[1..];
      } else {
        assert Present(cs, ids) == tail;
        ListFromIds(cs, ns, ids[1..], depth);
      }
    }
  }

  /** The filter of the top-level query: `{ Post, createdAt: { $lt }, isTopLevel: true }`.
      Soft-deleted comments are not excluded. */
  predicate IsTopLevelOf(c: PostComment, postId: PostId, before: int) {
    c.post == postId && c.createdAt < before && c.isTopLevel
  }

  ghost function TopLevelIds(cs: map<CommentId, PostComment>, postId: PostId, before: int): set<CommentId> {
    set id | id in cs && IsTopLevelOf(cs[id], postId, before)
  }

  /** `find(filter).limit(10)` with no sort: any ten matching comments, or
      all of them when there are fewer. */
  method SelectTopLevel(cs: map<CommentId, PostComment>, postId: PostId, before: int) returns (ids: seq<CommentId>)
    ensures |ids| == Min(TopLevelPage, |TopLevelIds(cs, postId, before)|)
    ensures forall i :: 0 <= i < |ids| ==> ids[i] in TopLevelIds(cs, postId, before)
    ensures forall i, j :: 0 <= i < j < |ids| ==> ids[i] != ids[j]
  {
    var pool := set id | id in cs && IsTopLevelOf(cs[id], postId, before);
    ghost var all := pool;
    ids := [];
    while |ids| < TopLevelPage && pool != {}
      invariant pool <= all
      invariant |ids| <= TopLevelPage
      invariant |ids| + |pool| == |all|
      invariant forall i :: 0 <= i < |ids| ==> ids[i] in all && ids[i] !in pool
      invariant forall i, j :: 0 <= i < j < |ids| ==> ids[i] != ids[j]
      decreases pool
    {
      var x :| x in pool;
      ids := ids + [x];
      pool := pool - {x};
    }
  }

  /** The reply of `FetchCommentTree`: a list of expanded comments, or no
      body at all when the requested parent does not exist. */
  datatype TreeReply = Page(nodes: seq<Node>) | NoParent

  /** `FetchCommentTree`. With a parent, its `Replies` in stored order, each
      populated two more levels (three populated levels in all); without one,
      up to ten top-level comments of the post, each populated three levels
      below it. The parent branch ignores `postId`; neither branch filters
      soft-deleted comments. */
  method FetchCommentTree(s: Store, postId: PostId, parentId: Option<CommentId>, lastFetchDate: int)
    returns (r: TreeReply)
    ensures parentId.Some? && parentId.value !in s.comments ==> r == NoParent
    ensures parentId.Some? && parentId.value in s.comments ==>
      && r.Page?
      && NodeIds(r.nodes) == Present(s.comments, s.comments[parentId.value].replies)
      && forall k :: 0 <= k < |r.nodes| ==> WellExpanded(s.comments, r.nodes[k], 2)
    ensures parentId.None? ==>
      && r.Page?
      && |r.nodes| == Min(TopLevelPage, |TopLevelIds(s.comments, postId, lastFetchDate)|)
      && (forall k :: 0 <= k < |r.nodes| ==> r.nodes[k].id in TopLevelIds(s.comments, postId, lastFetchDate))
      && (forall i, j :: 0 <= i < j < |r.nodes| ==> r.nodes[i].id != r.nodes[j].id)
      && (forall k :: 0 <= k < |r.nodes| ==> WellExpanded(s.comments, r.nodes[k], 3))
  {
    var cs := s.comments;
    match parentId {
      case Some(p) =>
        if p !in cs {
          r := NoParent;
        } else {
          ExpandListSound(cs, cs[p].replies, 2);
          r := Page(ExpandList(cs, cs[p].replies, 2));
        }
      case None =>
        var ids := SelectTopLevel(cs, postId, lastFetchDate);
        var nodes: seq<Node> := [];
        var k := 0;
        while k < |ids|
          invariant 0 <= k <= |ids|
          invariant |nodes| == k
          invariant forall i :: 0 <= i < k ==> nodes[i].id == ids[i]
          invariant forall i :: 0 <= i < k ==> WellExpanded(cs, nodes[i], 3)
        {
          ExpandNodeSound(cs, ids[k], 3);
          nodes := nodes + [ExpandNode(cs, ids[k], 3)];
          k := k + 1;
        }
        r := Page(nodes);
    }
  }
}

=== FILE: common.dfy ===
/** Identifier types and the failure-carrying datatypes shared by the whole
    community-board model. Store identifiers (Mongo ObjectIds) are opaque
    strings: the board only ever compares them for equality. */
module Common {

  type UserId = string
  type MemberId = string
  type ClubId = string
  type PostId = string
  type CommentId = string
  type FlairId = string

  datatype Option<+T> = None | Some(value: T)

  datatype Result<+T, +E> = Ok(value: T) | Err(error: E)

  /** The smaller of two naturals; page sizes are capped with it. */
  function Min(a: nat, b: nat): nat {
    if a <= b then a else b
  }
}

=== FILE: feed.dfy ===
/** Post feeds and the full-post read path: `formatPost`, `fetchClubPosts`,
    `FetchNews`, `FetchPosts` and `FetchFullPost`. */
module Feed {
  import opened Common
  import opened Ledger
  import opened Models

  /** Number of posts on one feed page (`.limit(5)`). */
  const PageSize: nat := 5

  /** The projection `formatPost` returns; the raw ledger is reduced to a
      count and a "liked by the current user" flag. */
  datatype PostView = PostView(
    id: PostId,
    author: MemberId,
    club: ClubId,
    postUrl: string,
    title: string,
    body: Option<string>,
    kind: PostType,
    flair: Option<FlairId>,
    images: seq<string>,
    likes: nat,
    commentCount: nat,
    postedOn: int,
    isLiked: bool,
    isDeleted: bool)

  /** `formatPost(post, CommentCount, currentUser)`. */
  function FormatPost(id: PostId, p: CommunityPost, commentCount: nat, currentUser: UserId): (v: PostView)
    ensures v.likes == |p.likedBy|
    ensures v.isLiked <==> exists i :: 0 <= i < |p.likedBy| && p.likedBy[i].user == currentUser
    ensures v.id == id && v.author == p.author && v.club == p.club && v.postUrl == p.postUri
    ensures v.title == p.title && v.body == p.body && v.kind == p.kind && v.flair == p.flair
    ensures v.images == p.images && v.postedOn == p.createdAt && v.isDeleted == p.isDeleted
    ensures v.commentCount == commentCount
  {
    PostView(id, p.author, p.club, p.postUri, p.title, p.body, p.kind, p.flair, p.images,
             |p.likedBy|, commentCount, p.createdAt, Liked(p.likedBy, currentUser), p.isDeleted)
  }

  /** `PostComment.countDocuments({ Post: id })`; soft-deleted comments are counted too. */
  function CommentCount(s: Store, id: PostId): nat {
    |set c | c in s.comments && s.comments[c].post == id|
  }

  /** The filter of `fetchClubPosts`. An empty `author` means no author filter. */
  datatype FeedQuery = FeedQuery(club: ClubId, kind: PostType, before: int, author: MemberId)

  predicate Matches(p: CommunityPost, q: FeedQuery) {
    && p.club == q.club
    && p.kind == q.kind
    && !p.isDeleted
    && p.createdAt < q.before
    && (q.author != "" ==> p.author == q.author)
  }

  /** `ids` is an admissible answer of
      `find(q).sort({ createdAt: -1 }).limit(5)`: at most five distinct
      matching posts, newest first, none of the matching posts left out is
      newer than one returned, and a short page holds every match. */
  ghost predicate IsFeedPage(posts: map<PostId, CommunityPost>, q: FeedQuery, ids: seq<PostId>) {
    && |ids| <= PageSize
    && (forall i :: 0 <= i < |ids| ==> ids[i] in posts && Matches(posts[ids[i]], q))
    && (forall i, j :: 0 <= i < j < |ids| ==> ids[i] != ids[j])
    && (forall i, j :: 0 <= i < j < |ids| ==> posts[ids[i]].createdAt >= posts[ids[j]].createdAt)
    && (|ids| < PageSize ==> forall id :: id in posts && Matches(posts[id], q) ==> id in ids)
    && (forall id, i :: id in posts && Matches(posts[id], q) && id !in ids && 0 <= i < |ids| ==>
          posts[id].createdAt <= posts[ids[i]].createdAt)
  }

  /** A non-empty set of posts has a newest member. */
  lemma {:induction false} NewestExists(pool: set<PostId>, posts: map<PostId, CommunityPost>)
    requires pool != {} && pool <= posts.Keys
    ensures exists n :: n in pool && forall o :: o in pool ==> posts[o].createdAt <= posts[n].createdAt
  {
    var x :| x in pool;
    var rest := pool - {x};
    if rest != {} {
      NewestExists(rest, posts);
      var n :| n in rest && forall o :: o in rest ==> posts[o].createdAt <= posts[n].createdAt;
      if posts[x].createdAt <= posts[n].createdAt {
        assert forall o :: o in pool ==> posts[o].createdAt <= posts[n].createdAt;
      } else {
        assert forall o :: o in pool ==> posts[o].createdAt <= posts[x].createdAt;
      }
    } else {
      assert pool == {x};
    }
  }

  /** The query and sort of `fetchClubPosts`. Posts with equal `createdAt`
      come back in an unspecified order, as the store promises no tie-break. */
  method SelectFeed(posts: map<PostId, CommunityPost>, q: FeedQuery) returns (ids: seq<PostId>)
    ensures IsFeedPage(posts, q, ids)
  {
    var pool := set id | id in posts && Matches(posts[id], q);
    ids := [];
    while |ids| < PageSize && pool != {}
      invariant |ids| <= PageSize
      invariant pool <= posts.Keys
      invariant forall id :: id in pool <==> id in posts && Matches(posts[id], q) && id !in ids
      invariant forall i :: 0 <= i < |ids| ==> ids[i] in posts && Matches(posts[ids[i]], q)
      invariant forall i, j :: 0 <= i < j < |ids| ==> ids[i] != ids[j]
      invariant forall i, j :: 0 <= i < j < |ids| ==> posts[ids[i]].createdAt >= posts[ids[j]].createdAt
      invariant forall id, i :: id in pool && 0 <= i < |ids| ==> posts[id].createdAt <= posts[ids[i]].createdAt
      decreases pool
    {
      NewestExists(pool, posts);
      var newest :| newest in pool && forall o :: o in pool ==> posts[o].createdAt <= posts[newest].createdAt;
      ids := ids + [newest];
      pool := pool - {newest};
    }
  }

  /** The next page is asked for with `before` set to the `createdAt` of the
      last post shown. When no two matching posts share a timestamp, a full
      page and that follow-up query split the matches exactly: each match is
      on this page or matches the next query, never both. */
  lemma NextPageContinues(posts: map<PostId, CommunityPost>, q: FeedQuery, ids: seq<PostId>)
    requires IsFeedPage(posts, q, ids) && |ids| == PageSize
    requires forall x, y :: x in posts && y in posts && x != y && Matches(posts[x], q) && Matches(posts[y], q) ==>
               posts[x].createdAt != posts[y].createdAt
    ensures forall id :: id in posts && Matches(posts[id], q) ==>
              (id in ids <==> !Matches(posts[id], q.(before := posts[ids[|ids| - 1]].createdAt)))
  {
  }

  /** Six matching posts created at the same instant, each under its own
      PostURI (its id), so the unique index admits them together. */
  function TiedPosts(p: CommunityPost): (posts: map<PostId, CommunityPost>)
    ensures posts.Keys == {"a", "b", "c", "d", "e", "f"}
    ensures forall id :: id in posts ==> posts[id] == p.(postUri := id)
  {
    map id | id in {"a", "b", "c", "d", "e", "f"} :: p.(postUri := id)
  }

  /** Any five of the tied posts make an admissible full page. */
  lemma TiedPageIsFeedPage(p: CommunityPost, q: FeedQuery)
    requires Matches(p, q)
    ensures IsFeedPage(TiedPosts(p), q, ["a", "b", "c", "d", "e"])
  {
    var posts := TiedPosts(p);
    var ids: seq<PostId> := ["a", "b", "c", "d", "e"];
    assert forall i :: 0 <= i < |ids| ==> ids[i] in posts && posts[ids[i]].createdAt == p.createdAt;
  }

  /** Without distinct timestamps the follow-up query loses posts: a full
      page of five tied posts is admissible, and the sixth is neither on it
      nor matched by the next page's query. */
  lemma TieAtPageEdgeIsSkipped(p: CommunityPost, q: FeedQuery)
    requires Matches(p, q)
    ensures forall x, y :: x in TiedPosts(p) && y in TiedPosts(p) && x != y ==>
              TiedPosts(p)[x].postUri != TiedPosts(p)[y].postUri
    ensures IsFeedPage(TiedPosts(p), q, ["a", "b", "c", "d", "e"])
    ensures "f" in TiedPosts(p) && Matches(TiedPosts(p)["f"], q) && "f" !in ["a", "b", "c", "d", "e"]
    ensures !Matches(TiedPosts(p)["f"], q.(before := TiedPosts(p)["e"].createdAt))
  {
    TiedPageIsFeedPage(p, q);
  }

  function PageIds(views: seq<PostView>): (ids: seq<PostId>)
    ensures |ids| == |views| && forall i :: 0 <= i < |views| ==> ids[i] == views[i].id
  {
    seq(|views|, i requires 0 <= i < |views| => views[i].id)
  }

  /** Every view on the page is `formatPost` of the stored post it names. */
  ghost predicate FormattedFrom(s: Store, views: seq<PostView>, userId: UserId) {
    forall i :: 0 <= i < |views| ==>
      views[i].id in s.posts &&
      views[i] == FormatPost(views[i].id, s.posts[views[i].id], CommentCount(s, views[i].id), userId)
  }

  /** `fetchClubPosts(clubID, type, before, userID, memberID)`. */
  method FetchClubPosts(s: Store, q: FeedQuery, userId: UserId) returns (views: seq<PostView>)
    ensures IsFeedPage(s.posts, q, PageIds(views))
    ensures FormattedFrom(s, views, userId)
  {
    var ids := SelectFeed(s.posts, q);
    views := seq(|ids|, i requires 0 <= i < |ids| && ids[i] in s.posts =>
                   FormatPost(ids[i], s.posts[ids[i]], CommentCount(s, ids[i]), userId));
    assert PageIds(views) == ids;
  }

  /** `FetchNews`: the News feed of a club, with no membership check. */
  method FetchNews(s: Store, club: ClubId, userId: UserId, lastFetched: int) returns (r: Result<seq<PostView>, Error>)
    ensures r.Ok?
    ensures IsFeedPage(s.posts, FeedQuery(club, News, lastFetched, ""), PageIds(r.value))
    ensures FormattedFrom(s, r.value, userId)
  {
    var views := FetchClubPosts(s, FeedQuery(club, News, lastFetched, ""), userId);
    r := Ok(views);
  }

  /** `FetchPosts`: the Post feed of a club, only for members of that club. */
  method FetchPosts(s: Store, club: ClubId, userId: UserId, lastFetched: int) returns (r: Result<seq<PostView>, Error>)
    ensures r.Err? <==> !IsMember(s, club, userId)
    ensures r.Err? ==> r.error == NotAMember
    ensures r.Ok? ==> IsFeedPage(s.posts, FeedQuery(club, Post, lastFetched, ""), PageIds(r.value))
    ensures r.Ok? ==> FormattedFrom(s, r.value, userId)
  {
    if IsMember(s, club, userId) {
      var views := FetchClubPosts(s, FeedQuery(club, Post, lastFetched, ""), userId);
      r := Ok(views);
    } else {
      r := Err(NotAMember);
    }
  }

  /** `FetchFullPost`: `findOne({ PostURI: uri, isDeleted: false })`. A
      soft-deleted post is not found on this path. */
  function FetchFullPost(s: Store, uri: string, userId: UserId): (r: Result<PostView, Error>)
    requires Valid(s)
    ensures r.Ok? <==> exists id :: id in s.posts && s.posts[id].postUri == uri && !s.posts[id].isDeleted
    ensures r.Err? ==> r.error == PostNotFound
    ensures r.Ok? ==> r.value.id in s.posts && s.posts[r.value.id].postUri == uri
                      && r.value == FormatPost(r.value.id, s.posts[r.value.id], CommentCount(s, r.value.id), userId)
  {
    if uri in s.postUris && !s.posts[s.postUris[uri]].isDeleted then
      var id := s.postUris[uri];
      Ok(FormatPost(id, s.posts[id], CommentCount(s, id), userId))
    else
      Err(PostNotFound)
  }
}

=== FILE: ledger.dfy ===
/** The like ledger embedded in every post and comment: a plain list of
    (User, LikedOn) entries. Entries carry no id of their own, so an entry is
    identified only by its User; the list imposes no per-user uniqueness. */
module Ledger {
  import opened Common

  datatype LikedBy = LikedBy(user: UserId, likedOn: int)

  /** `Array.prototype.find` over the ledger: the first entry whose User is `u`. */
  function Find(l: seq<LikedBy>, u: UserId): (r: Option<LikedBy>)
    ensures r.Some? <==> exists i :: 0 <= i < |l| && l[i].user == u
    ensures r.Some? ==> r.value.user == u && r.value in l
  {
    if |l| == 0 then None
    else if l[0].user == u then Some(l[0])
    else
      var rest := Find(l[1..], u);
      assert rest.Some? ==> rest.value in l[1..];
      rest
  }

  /** The truthiness test `LikedBy.find(e => e.User === u) ? true : false`. */
  predicate Liked(l: seq<LikedBy>, u: UserId) {
    Find(l, u).Some?
  }

  /** Number of entries that belong to `u`. */
  function Count(l: seq<LikedBy>, u: UserId): (n: nat)
    ensures n <= |l|
    ensures n > 0 <==> exists i :: 0 <= i < |l| && l[i].user == u
  {
    if |l| == 0 then 0
    else (if l[0].user == u then 1 else 0) + Count(l[1..], u)
  }

  /** `$push: { LikedBy: { User: u } }`; LikedOn takes the schema default `stamp`. */
  function Push(l: seq<LikedBy>, u: UserId, stamp: int): (r: seq<LikedBy>)
    ensures |r| == |l| + 1 && r[..|l|] == l
    ensures r[|l|].user == u && r[|l|].likedOn == stamp
    ensures Count(r, u) == Count(l, u) + 1
  {
    CountAppend(l, [LikedBy(u, stamp)], u);
    l + [LikedBy(u, stamp)]
  }

  /** The entries of `l` whose User is not `u`, in their original order. */
  function Without(l: seq<LikedBy>, u: UserId): seq<LikedBy> {
    if |l| == 0 then []
    else if l[0].user == u then Without(l[1..], u)
    else [l[0]] + Without(l[1..], u)
  }

  /** Filtering out `u` drops exactly the entries of `u`. */
  lemma {:induction false} WithoutDrops(l: seq<LikedBy>, u: UserId)
    ensures forall i :: 0 <= i < |Without(l, u)| ==> Without(l, u)[i].user != u
    ensures |Without(l, u)| == |l| - Count(l, u)
  {
    if |l| > 0 {
      WithoutDrops(l[1..], u);
    }
  }

  /** Filtering out `u` invents no entry and keeps every entry of another user. */
  lemma {:induction false} WithoutKeeps(l: seq<LikedBy>, u: UserId)
    ensures multiset(Without(l, u)) <= multiset(l)
    ensures forall e :: e in l && e.user != u ==> e in Without(l, u)
  {
    if |l| > 0 {
      assert l == [l[0]] + l[1..];
      WithoutKeeps(l[1..], u);
    }
  }

  /** `$pull: { LikedBy: { User: u } }`: removes every entry of `u`. */
  function Pull(l: seq<LikedBy>, u: UserId): (r: seq<LikedBy>)
    ensures forall i :: 0 <= i < |r| ==> r[i].user != u
    ensures |r| == |l| - Count(l, u)
    ensures multiset(r) <= multiset(l)
    ensures forall e :: e in l && e.user != u ==> e in r
  {
    WithoutDrops(l, u);
    WithoutKeeps(l, u);
    Without(l, u)
  }

  lemma {:induction false} CountAppend(a: seq<LikedBy>, b: seq<LikedBy>, u: UserId)
    ensures Count(a + b, u) == Count(a, u) + Count(b, u)
  {
    if |a| == 0 {
      assert a + b == b;
    } else {
      assert (a + b)[1..] == a[1..] + b;
      CountAppend(a[1..], b, u);
    }
  }

  /** `Liked` (the controller's `find` test) holds exactly when `u` has at least one entry. */
  lemma LikedIffCounted(l: seq<LikedBy>, u: UserId)
    ensures Liked(l, u) <==> Count(l, u) > 0
  {
  }

  /** Filtering distributes over concatenation. */
  lemma {:induction false} WithoutAppend(a: seq<LikedBy>, b: seq<LikedBy>, u: UserId)
    ensures Without(a + b, u) == Without(a, u) + Without(b, u)
  {
    if |a| == 0 {
      assert a + b == b;
    } else {
      assert (a + b)[0] == a[0];
      assert (a + b)[1..] == a[1..] + b;
      WithoutAppend(a[1..], b, u);
    }
  }

  /** Pulling distributes over concatenation, so the surviving entries keep their order. */
  lemma PullAppend(a: seq<LikedBy>, b: seq<LikedBy>, u: UserId)
    ensures Pull(a + b, u) == Pull(a, u) + Pull(b, u)
  {
    WithoutAppend(a, b, u);
  }

  /** `$pull` on a one-entry ledger. With `PullAppend` this fixes the result
      of a pull on every ledger: the entries of other users, in their order. */
  lemma PullSingle(x: LikedBy, u: UserId)
    ensures Pull([x], u) == if x.user == u then [] else [x]
  {
  }

  /** Pulling a user with no entry leaves the ledger as it was. */
  lemma {:induction false} PullAbsent(l: seq<LikedBy>, u: UserId)
    requires !Liked(l, u)
    ensures Pull(l, u) == l
  {
    if |l| > 0 {
      assert l[0].user != u;
      PullAbsent(l[1..], u);
      assert l == [l[0]] + l[1..];
    }
  }

  /** A push followed by a pull of the same user restores a ledger in which that user had no entry. */
  lemma PullUndoesPush(l: seq<LikedBy>, u: UserId, stamp: int)
    requires !Liked(l, u)
    ensures Pull(Push(l, u, stamp), u) == l
  {
    PullAppend(l, [LikedBy(u, stamp)], u);
    PullAbsent(l, u);
  }

  /** Pulling is idempotent: a second pull of the same user changes nothing. */
  lemma PullIdempotent(l: seq<LikedBy>, u: UserId)
    ensures Pull(Pull(l, u), u) == Pull(l, u)
  {
    var r := Pull(l, u);
    assert !Liked(r, u);
    PullAbsent(r, u);
  }

  /** The entries of `v`, in ledger order. */
  function Own(l: seq<LikedBy>, v: UserId): (r: seq<LikedBy>)
    ensures |r| == Count(l, v)
    ensures forall i :: 0 <= i < |r| ==> r[i].user == v
  {
    if |l| == 0 then []
    else if l[0].user == v then [l[0]] + Own(l[1..], v)
    else Own(l[1..], v)
  }

  /** Entries of every other user survive a pull untouched and in their original order. */
  lemma {:induction false} PullKeepsOthers(l: seq<LikedBy>, u: UserId, v: UserId)
    requires v != u
    ensures Own(Pull(l, u), v) == Own(l, v)
  {
    if |l| > 0 {
      PullKeepsOthers(l[1..], u, v);
      if l[0].user != u {
        var r := [l[0]] + Pull(l[1..], u);
        assert Pull(l, u) == r;
        assert r[0] == l[0] && r[1..] == Pull(l[1..], u);
      }
    }
  }
}

=== FILE: likes.dfy ===
/** The like handlers: `LikePost`, `UnLikePost`, `LikeComment`,
    `UnLikeComment`. Each is one store transition; `now` is the time the store
    stamps into `updatedAt` when its `findByIdAndUpdate` runs. */
module Likes {
  import opened Common
  import opened Ledger
  import opened Models

  /** The gate `LikePost` applies before writing: the user exists, the post
      exists and is not soft-deleted, and a `Post`-type post needs the user
      to be a member of its club (News needs no membership). */
  predicate CanLikePost(s: Store, postId: PostId, userId: UserId) {
    && userId in s.users
    && postId in s.posts
    && !s.posts[postId].isDeleted
    && (s.posts[postId].kind == Post ==> IsMember(s, s.posts[postId].club, userId))
  }

  /** `LikePost`: appends one ledger entry for the user, with no duplicate check. */
  function LikePost(s: Store, postId: PostId, userId: UserId, now: int): (r: Step<nat>)
    ensures userId !in s.users ==> r.reply == Err(UserNotFound)
    ensures userId in s.users && (postId !in s.posts || s.posts[postId].isDeleted) ==> r.reply == Err(PostNotFound)
    ensures (userId in s.users && postId in s.posts && !s.posts[postId].isDeleted
             && s.posts[postId].kind == Post && !IsMember(s, s.posts[postId].club, userId)) ==> r.reply == Err(NotAMember)
    ensures r.reply.Ok? <==> CanLikePost(s, postId, userId)
    ensures r.reply.Err? ==> r.store == s
    ensures r.reply.Ok? ==>
      && OnlyPostChanged(s, r.store, postId)
      && r.store.posts[postId] == s.posts[postId].(likedBy := r.store.posts[postId].likedBy, updatedAt := now)
      && r.store.posts[postId].likedBy == s.posts[postId].likedBy + [LikedBy(userId, s.likedOnDefault)]
      && r.reply.value == |s.posts[postId].likedBy| + 1
      && Count(r.store.posts[postId].likedBy, userId) == Count(s.posts[postId].likedBy, userId) + 1
    ensures Valid(s) ==> Valid(r.store)
  {
    if userId !in s.users then Step(s, Err(UserNotFound))
    else if postId !in s.posts || s.posts[postId].isDeleted then Step(s, Err(PostNotFound))
    else
      var p := s.posts[postId];
      if p.kind == Post && !IsMember(s, p.club, userId) then Step(s, Err(NotAMember))
      else
        var ledger := Push(p.likedBy, userId, s.likedOnDefault);
        var s' := s.(posts := s.posts[postId := p.(likedBy := ledger, updatedAt := now)]);
        assert Valid(s) ==> Valid(s') by {
          if Valid(s) { UpdatePostKeepsValid(s, postId, p.(likedBy := ledger, updatedAt := now)); }
        }
        Step(s', Ok(|ledger|))
  }

  /** `UnLikePost`: removes every entry of the user. Soft-deleted posts are
      not rejected here, unlike `LikePost`. */
  function UnLikePost(s: Store, postId: PostId, userId: UserId, now: int): (r: Step<nat>)
    ensures userId !in s.users ==> r.reply == Err(UserNotFound)
    ensures userId in s.users && postId !in s.posts ==> r.reply == Err(PostNotFound)
    ensures userId in s.users && postId in s.posts && !Liked(s.posts[postId].likedBy, userId) ==> r.reply == Err(NotLiked)
    ensures r.reply.Ok? <==> userId in s.users && postId in s.posts && Count(s.posts[postId].likedBy, userId) > 0
    ensures r.reply.Err? ==> r.store == s
    ensures r.reply.Ok? ==>
      && OnlyPostChanged(s, r.store, postId)
      && r.store.posts[postId] == s.posts[postId].(likedBy := r.store.posts[postId].likedBy, updatedAt := now)
      && !Liked(r.store.posts[postId].likedBy, userId)
      && r.reply.value == |s.posts[postId].likedBy| - Count(s.posts[postId].likedBy, userId)
      && r.reply.value == |r.store.posts[postId].likedBy|
      && (forall v :: v != userId ==> Own(r.store.posts[postId].likedBy, v) == Own(s.posts[postId].likedBy, v))
      && r.store.posts[postId].likedBy == Pull(s.posts[postId].likedBy, userId)
    ensures Valid(s) ==> Valid(r.store)
  {
    if userId !in s.users then Step(s, Err(UserNotFound))
    else if postId !in s.posts then Step(s, Err(PostNotFound))
    else
      var p := s.posts[postId];
      if !Liked(p.likedBy, userId) then Step(s, Err(NotLiked))
      else
        var ledger := Pull(p.likedBy, userId);
        var s' := s.(posts := s.posts[postId := p.(likedBy := ledger, updatedAt := now)]);
        assert forall v :: v != userId ==> Own(ledger, v) == Own(p.likedBy, v) by {
          forall v | v != userId ensures Own(ledger, v) == Own(p.likedBy, v) {
            PullKeepsOthers(p.likedBy, userId, v);
          }
        }
        assert Valid(s) ==> Valid(s') by {
          if Valid(s) { UpdatePostKeepsValid(s, postId, p.(likedBy := ledger, updatedAt := now)); }
        }
        Step(s', Ok(|ledger|))
  }

  /** The gate `LikeComment` applies before writing: the user and the comment
      exist and the user is a member of the comment's club. Soft-deleted
      comments are not rejected. */
  predicate CanLikeComment(s: Store, commentId: CommentId, userId: UserId) {
    && userId in s.users
    && commentId in s.comments
    && IsMember(s, s.comments[commentId].club, userId)
  }

  /** `LikeComment`. A duplicate like is reported to the client as
      `AlreadyLiked`, but the handler does not return after that reply, so the
      entry is appended anyway. */
  function LikeComment(s: Store, commentId: CommentId, userId: UserId, now: int): (r: Step<nat>)
    ensures userId !in s.users ==> r.reply == Err(UserNotFound)
    ensures userId in s.users && commentId !in s.comments ==> r.reply == Err(CommentNotFound)
    ensures userId in s.users && commentId in s.comments && !IsMember(s, s.comments[commentId].club, userId) ==>
              r.reply == Err(NotAMember)
    ensures !CanLikeComment(s, commentId, userId) ==> r.store == s
    ensures CanLikeComment(s, commentId, userId) ==>
      && OnlyCommentChanged(s, r.store, commentId)
      && r.store.comments[commentId] == s.comments[commentId].(likedBy := r.store.comments[commentId].likedBy, updatedAt := now)
      && r.store.comments[commentId].likedBy == s.comments[commentId].likedBy + [LikedBy(userId, s.likedOnDefault)]
      && (Liked(s.comments[commentId].likedBy, userId) ==> r.reply == Err(AlreadyLiked))
      && (!Liked(s.comments[commentId].likedBy, userId) ==> r.reply == Ok(|s.comments[commentId].likedBy| + 1))
  {
    if userId !in s.users then Step(s, Err(UserNotFound))
    else if commentId !in s.comments then Step(s, Err(CommentNotFound))
    else
      var c := s.comments[commentId];
      if !IsMember(s, c.club, userId) then Step(s, Err(NotAMember))
      else
        var ledger := Push(c.likedBy, userId, s.likedOnDefault);
        var s' := s.(comments := s.comments[commentId := c.(likedBy := ledger, updatedAt := now)]);
        if Liked(c.likedBy, userId) then Step(s', Err(AlreadyLiked))
        else Step(s', Ok(|ledger|))
  }

  /** `UnLikeComment`. A missing like is reported as `NotLiked`, but the
      handler does not return after that reply, so the `$pull` still runs; it
      leaves the ledger as it was and only refreshes `updatedAt`. */
  function UnLikeComment(s: Store, commentId: CommentId, userId: UserId, now: int): (r: Step<nat>)
    ensures userId !in s.users ==> r == Step(s, Err(UserNotFound))
    ensures userId in s.users && commentId !in s.comments ==> r == Step(s, Err(CommentNotFound))
    ensures userId in s.users && commentId in s.comments ==>
      && OnlyCommentChanged(s, r.store, commentId)
      && r.store.comments[commentId] == s.comments[commentId].(likedBy := r.store.comments[commentId].likedBy, updatedAt := now)
      && !Liked(r.store.comments[commentId].likedBy, userId)
      && (forall v :: v != userId ==> Own(r.store.comments[commentId].likedBy, v) == Own(s.comments[commentId].likedBy, v))
      && r.store.comments[commentId].likedBy == Pull(s.comments[commentId].likedBy, userId)
      && (!Liked(s.comments[commentId].likedBy, userId) ==>
            r.reply == Err(NotLiked) && r.store.comments[commentId].likedBy == s.comments[commentId].likedBy)
      && (Liked(s.comments[commentId].likedBy, userId) ==>
            r.reply == Ok(|s.comments[commentId].likedBy| - Count(s.comments[commentId].likedBy, userId)))
  {
    if userId !in s.users then Step(s, Err(UserNotFound))
    else if commentId !in s.comments then Step(s, Err(CommentNotFound))
    else
      var c := s.comments[commentId];
      var ledger := Pull(c.likedBy, userId);
      var s' := s.(comments := s.comments[commentId := c.(likedBy := ledger, updatedAt := now)]);
      assert forall v :: v != userId ==> Own(ledger, v) == Own(c.likedBy, v) by {
        forall v | v != userId ensures Own(ledger, v) == Own(c.likedBy, v) {
          PullKeepsOthers(c.likedBy, userId, v);
        }
      }
      if !Liked(c.likedBy, userId) then
        PullAbsent(c.likedBy, userId);
        Step(s', Err(NotLiked))
      else Step(s', Ok(|ledger|))
  }

  /** Liking a post is not idempotent: two accepted likes by the same user
      add two entries and raise the reported count by two. */
  lemma LikePostTwiceCountsTwice(s: Store, postId: PostId, userId: UserId, t1: int, t2: int)
    requires CanLikePost(s, postId, userId)
    ensures var first := LikePost(s, postId, userId, t1);
            var second := LikePost(first.store, postId, userId, t2);
            && second.reply == Ok(|s.posts[postId].likedBy| + 2)
            && Count(second.store.posts[postId].likedBy, userId) == Count(s.posts[postId].likedBy, userId) + 2
  {
    var first := LikePost(s, postId, userId, t1);
    assert first.store.users == s.users && first.store.members == s.members;
    assert CanLikePost(first.store, postId, userId);
  }

  /** Like followed by unlike restores the post's ledger and reports the
      original count, provided the user had no entry before. */
  lemma LikeThenUnlikePost(s: Store, postId: PostId, userId: UserId, t1: int, t2: int)
    requires CanLikePost(s, postId, userId)
    requires !Liked(s.posts[postId].likedBy, userId)
    ensures var liked := LikePost(s, postId, userId, t1);
            var unliked := UnLikePost(liked.store, postId, userId, t2);
            && unliked.reply == Ok(|s.posts[postId].likedBy|)
            && unliked.store.posts[postId].likedBy == s.posts[postId].likedBy
  {
    var l := s.posts[postId].likedBy;
    var liked := LikePost(s, postId, userId, t1);
    assert liked.store.posts[postId].likedBy == Push(l, userId, s.likedOnDefault);
    PullUndoesPush(l, userId, s.likedOnDefault);
    LikedIffCounted(liked.store.posts[postId].likedBy, userId);
  }

  /** Unliking a post the user never liked is rejected and changes nothing. */
  lemma UnlikeWithoutLike(s: Store, postId: PostId, userId: UserId, now: int)
    requires userId in s.users && postId in s.posts
    requires Count(s.posts[postId].likedBy, userId) == 0
    ensures UnLikePost(s, postId, userId, now) == Step(s, Err(NotLiked))
  {
    LikedIffCounted(s.posts[postId].likedBy, userId);
  }

  /** A repeated comment like is answered with `AlreadyLiked`, yet the
      ledger still grows: the user now holds one more entry than before. */
  lemma LikeCommentTwiceDuplicates(s: Store, commentId: CommentId, userId: UserId, t1: int, t2: int)
    requires CanLikeComment(s, commentId, userId)
    ensures var first := LikeComment(s, commentId, userId, t1);
            var second := LikeComment(first.store, commentId, userId, t2);
            && second.reply == Err(AlreadyLiked)
            && Count(second.store.comments[commentId].likedBy, userId) == Count(s.comments[commentId].likedBy, userId) + 2
  {
    var first := LikeComment(s, commentId, userId, t1);
    var l1 := first.store.comments[commentId].likedBy;
    assert CanLikeComment(first.store, commentId, userId);
    assert l1[|l1| - 1].user == userId;
    LikedIffCounted(l1, userId);
  }

  /** Like followed by unlike restores a comment's ledger and reports the
      original count, provided the user had no entry before. */
  lemma LikeThenUnlikeComment(s: Store, commentId: CommentId, userId: UserId, t1: int, t2: int)
    requires CanLikeComment(s, commentId, userId)
    requires !Liked(s.comments[commentId].likedBy, userId)
    ensures var liked := LikeComment(s, commentId, userId, t1);
            var unliked := UnLikeComment(liked.store, commentId, userId, t2);
            && unliked.reply == Ok(|s.comments[commentId].likedBy|)
            && unliked.store.comments[commentId].likedBy == s.comments[commentId].likedBy
  {
    var l := s.comments[commentId].likedBy;
    var liked := LikeComment(s, commentId, userId, t1);
    var l1 := liked.store.comments[commentId].likedBy;
    assert l1 == Push(l, userId, s.likedOnDefault);
    assert l1[|l|].user == userId;
    PullUndoesPush(l, userId, s.likedOnDefault);
    LikedIffCounted(l, userId);
  }
}

=== FILE: models.dfy ===
/** The stored documents of the community board and the in-memory store that
    holds them: posts (with the unique index on PostURI), comments, the
    membership collection, clubs with their moderators, and the user
    collection. Every handler of the board is a transition on `Store`. */
module Models {
  import opened Common
  import opened Ledger

  /** `Type: { enum: ["Post", "News"] }`. */
  datatype PostType = Post | News

  /** The string the schema stores for a post type. */
  function TypeName(t: PostType): string {
    match t
    case Post => "Post"
    case News => "News"
  }

  /** The enum validator: only the two listed strings are accepted. */
  function ParseType(s: string): (r: Option<PostType>)
    ensures r.Some? <==> s == "Post" || s == "News"
    ensures r.Some? ==> TypeName(r.value) == s
  {
    if s == "Post" then Some(Post)
    else if s == "News" then Some(News)
    else None
  }

  /** Parsing is the exact inverse of naming: every post type survives the round trip. */
  lemma TypeNameRoundTrip(t: PostType)
    ensures ParseType(TypeName(t)) == Some(t)
  {
  }

  /** A community post document. `flair` and `body` are the optional fields;
      `createdAt`/`updatedAt` are store-assigned timestamps. */
  datatype CommunityPost = CommunityPost(
    club: ClubId,
    author: MemberId,
    postUri: string,
    kind: PostType,
    createdAt: int,
    updatedAt: int,
    flair: Option<FlairId>,
    title: string,
    body: Option<string>,
    images: seq<string>,
    likedBy: seq<LikedBy>,
    isDeleted: bool)

  /** A comment document. There is no parent field: a comment's parent is
      whichever comment lists it in `replies`, and nothing ties `isTopLevel`
      to that relation. */
  datatype PostComment = PostComment(
    club: ClubId,
    author: MemberId,
    post: PostId,
    replies: seq<CommentId>,
    isTopLevel: bool,
    body: string,
    createdAt: int,
    updatedAt: int,
    likedBy: seq<LikedBy>,
    isDeleted: bool)

  /** A membership record: user `user` belongs to club `club`. */
  datatype Member = Member(club: ClubId, user: UserId)

  /** The part of a club the board consults: its moderators (user ids). */
  datatype Club = Club(moderators: seq<UserId>)

  /** The in-memory store. `postUris` is the unique index on PostURI.
      `likedOnDefault` is the single `new Date()` the LikedBy schema captured
      when it was built; every ledger entry the board writes carries it. */
  datatype Store = Store(
    users: set<UserId>,
    members: map<MemberId, Member>,
    clubs: map<ClubId, Club>,
    posts: map<PostId, CommunityPost>,
    postUris: map<string, PostId>,
    comments: map<CommentId, PostComment>,
    likedOnDefault: int)

  /** The unique PostURI index agrees with the posts: every post is indexed
      under its own URI and every index entry points at a post with that URI. */
  predicate Valid(s: Store) {
    && (forall uri :: uri in s.postUris ==> s.postUris[uri] in s.posts && s.posts[s.postUris[uri]].postUri == uri)
    && (forall id :: id in s.posts ==> s.posts[id].postUri in s.postUris && s.postUris[s.posts[id].postUri] == id)
  }

  /** `Member.find({ Club: club, User: user })` is non-empty. */
  predicate IsMember(s: Store, club: ClubId, user: UserId) {
    exists m :: m in s.members && s.members[m] == Member(club, user)
  }

  /** The failures a board handler reports. */
  datatype Error =
    | UserNotFound         // 400 "User does not exist"
    | PostNotFound         // 400 / 404 "Post does not exist", "No such post exists", "Post not found"
    | CommentNotFound      // 400 / 404 "Comment does not exist", "No such comment exists"
    | NotAMember           // 406 membership required
    | AlreadyLiked         // 400 "You have already given this comment a like"
    | NotLiked             // 400 "You have not given this post/comment a like"
    | InvalidPermissions   // 406 (post) / 404 (comment) "Invalid Permissions"
    | ValidationFailed     // the schema rejected the document on save
    | DuplicateKey         // a unique index (_id or PostURI) rejected the insert

  /** What one handler invocation leaves behind: the store after it and the
      reply the client received. A reply can be an error while the store has
      still changed. */
  datatype Step<+T> = Step(store: Store, reply: Result<T, Error>)

  /** `s'` differs from `s` at most in the post stored under `id`. */
  predicate OnlyPostChanged(s: Store, s': Store, id: PostId) {
    && s'.(posts := s.posts) == s
    && s'.posts.Keys == s.posts.Keys
    && forall other :: other in s.posts && other != id ==> s'.posts[other] == s.posts[other]
  }

  /** `s'` differs from `s` at most in the comment stored under `id`. */
  predicate OnlyCommentChanged(s: Store, s': Store, id: CommentId) {
    && s'.(comments := s.comments) == s
    && s'.comments.Keys == s.comments.Keys
    && forall other :: other in s.comments && other != id ==> s'.comments[other] == s.comments[other]
  }

  /** Replacing a post by one with the same URI keeps the index valid. */
  lemma UpdatePostKeepsValid(s: Store, id: PostId, p: CommunityPost)
    requires Valid(s) && id in s.posts && p.postUri == s.posts[id].postUri
    ensures Valid(s.(posts := s.posts[id := p]))
  {
  }

  /** Inserting a post under a fresh id and a fresh URI keeps the index valid. */
  lemma InsertPostKeepsValid(s: Store, id: PostId, p: CommunityPost)
    requires Valid(s) && id !in s.posts && p.postUri !in s.postUris
    ensures Valid(s.(posts := s.posts[id := p], postUris := s.postUris[p.postUri := id]))
  {
    var s' := s.(posts := s.posts[id := p], postUris := s.postUris[p.postUri := id]);
    forall uri | uri in s'.postUris
      ensures s'.postUris[uri] in s'.posts && s'.posts[s'.postUris[uri]].postUri == uri
    {
      if uri != p.postUri {
        assert s.postUris[uri] in s.posts && s.postUris[uri] != id;
      }
    }
  }
}

=== FILE: moderation.dfy ===
/** Soft deletion of posts and comments and the authorization check both
    handlers share. The acting user arrives already verified, as the decoded
    access token: `{ ID, role, club.MemberID }`. */
module Moderation {
  import opened Common
  import opened Models

  /** The decoded access token. `memberId` is `None` when the token carries no
      `club.MemberID` (a user without a club), so it never equals an author. */
  datatype Actor = Actor(id: UserId, role: string, memberId: Option<MemberId>)

  /** The delete authorization: staff roles, the author, or a moderator of the
      content's club (no club record means no moderators). */
  predicate CanModerate(actor: Actor, author: MemberId, club: Option<Club>) {
    || actor.role == "Faculty"
    || actor.role == "Admin"
    || actor.memberId == Some(author)
    || (club.Some? && actor.id in club.value.moderators)
  }

  /** `Club.findById(id)`. */
  function ClubOf(s: Store, id: ClubId): (r: Option<Club>)
    ensures r.Some? <==> id in s.clubs
    ensures r.Some? ==> r.value == s.clubs[id]
  {
    if id in s.clubs then Some(s.clubs[id]) else None
  }

  /** `DeletePost`: looks the post up by PostURI (soft-deleted posts
      included) and, when authorized, sets `isDeleted`. The image files are
      unlinked on disk but the `Images` list is kept. Saving a document whose
      flag was already set writes nothing. */
  function DeletePost(s: Store, uri: string, actor: Actor, now: int): (r: Step<()>)
    requires Valid(s)
    ensures uri !in s.postUris ==> r == Step(s, Err(PostNotFound))
    ensures uri in s.postUris ==>
      var id := s.postUris[uri];
      var p := s.posts[id];
      && (r.reply.Ok? <==> CanModerate(actor, p.author, ClubOf(s, p.club)))
      && (r.reply.Err? ==> r == Step(s, Err(InvalidPermissions)))
      && (r.reply.Ok? ==> OnlyPostChanged(s, r.store, id) && r.store.posts[id].isDeleted)
      && (r.reply.Ok? && !p.isDeleted ==> r.store.posts[id] == p.(isDeleted := true, updatedAt := now))
      && (r.reply.Ok? && p.isDeleted ==> r.store == s)
    ensures Valid(r.store)
  {
    if uri !in s.postUris then Step(s, Err(PostNotFound))
    else
      var id := s.postUris[uri];
      var p := s.posts[id];
      if !CanModerate(actor, p.author, ClubOf(s, p.club)) then Step(s, Err(InvalidPermissions))
      else if p.isDeleted then Step(s, Ok(()))
      else
        UpdatePostKeepsValid(s, id, p.(isDeleted := true, updatedAt := now));
        Step(s.(posts := s.posts[id := p.(isDeleted := true, updatedAt := now)]), Ok(()))
  }

  /** `DeleteComment`: looks the comment up by id (soft-deleted comments
      included) and, when authorized, sets `isDeleted`. */
  function DeleteComment(s: Store, commentId: CommentId, actor: Actor, now: int): (r: Step<()>)
    ensures commentId !in s.comments ==> r == Step(s, Err(CommentNotFound))
    ensures commentId in s.comments ==>
      var c := s.comments[commentId];
      && (r.reply.Ok? <==> CanModerate(actor, c.author, ClubOf(s, c.club)))
      && (r.reply.Err? ==> r == Step(s, Err(InvalidPermissions)))
      && (r.reply.Ok? ==> OnlyCommentChanged(s, r.store, commentId) && r.store.comments[commentId].isDeleted)
      && (r.reply.Ok? && !c.isDeleted ==> r.store.comments[commentId] == c.(isDeleted := true, updatedAt := now))
      && (r.reply.Ok? && c.isDeleted ==> r.store == s)
  {
    if commentId !in s.comments then Step(s, Err(CommentNotFound))
    else
      var c := s.comments[commentId];
      if !CanModerate(actor, c.author, ClubOf(s, c.club)) then Step(s, Err(InvalidPermissions))
      else if c.isDeleted then Step(s, Ok(()))
      else Step(s.(comments := s.comments[commentId := c.(isDeleted := true, updatedAt := now)]), Ok(()))
  }

  /** The authorization matrix for a post by member `m` in a club whose
      moderators include `mod`: Faculty, Admin, the author and the moderator
      may delete; an actor that is none of these is refused. */
  lemma DeletePostMatrix(s: Store, uri: string, now: int, mod: UserId, other: Actor)
    requires Valid(s) && uri in s.postUris
    requires s.posts[s.postUris[uri]].club in s.clubs
    requires mod in s.clubs[s.posts[s.postUris[uri]].club].moderators
    requires other.role != "Faculty" && other.role != "Admin"
    requires other.memberId != Some(s.posts[s.postUris[uri]].author)
    requires other.id !in s.clubs[s.posts[s.postUris[uri]].club].moderators
    ensures forall id :: DeletePost(s, uri, Actor(id, "Faculty", None), now).reply.Ok?
    ensures forall id :: DeletePost(s, uri, Actor(id, "Admin", None), now).reply.Ok?
    ensures forall id, role :: DeletePost(s, uri, Actor(id, role, Some(s.posts[s.postUris[uri]].author)), now).reply.Ok?
    ensures forall role, member :: DeletePost(s, uri, Actor(mod, role, member), now).reply.Ok?
    ensures DeletePost(s, uri, other, now) == Step(s, Err(InvalidPermissions))
  {
  }

  /** Deleting twice leaves the same store as deleting once. */
  lemma DeletePostIdempotent(s: Store, uri: string, actor: Actor, t1: int, t2: int)
    requires Valid(s)
    requires DeletePost(s, uri, actor, t1).reply.Ok?
    ensures var once := DeletePost(s, uri, actor, t1).store;
            DeletePost(once, uri, actor, t2) == Step(once, Ok(()))
  {
    var once := DeletePost(s, uri, actor, t1).store;
    var id := s.postUris[uri];
    assert once.postUris == s.postUris && once.clubs == s.clubs;
    assert once.posts[id].author == s.posts[id].author && once.posts[id].club == s.posts[id].club;
  }

  /** Deleting a comment twice leaves the same store as deleting it once. */
  lemma DeleteCommentIdempotent(s: Store, commentId: CommentId, actor: Actor, t1: int, t2: int)
    requires DeleteComment(s, commentId, actor, t1).reply.Ok?
    ensures var once := DeleteComment(s, commentId, actor, t1).store;
            DeleteComment(once, commentId, actor, t2) == Step(once, Ok(()))
  {
    var once := DeleteComment(s, commentId, actor, t1).store;
    assert once.clubs == s.clubs;
    assert once.comments[commentId].author == s.comments[commentId].author;
    assert once.comments[commentId].club == s.comments[commentId].club;
  }
}

=== FILE: posts.dfy ===
/** `CreatePost`: builds the slug, fills the post document with its schema
    defaults and inserts it under the unique PostURI index. The clock
    reading, the base-36 digits of the `Math.random()` fraction and the new
    document id are inputs. */
module Posts {
  import opened Common
  import opened Ledger
  import opened Models
  import opened Slug

  /** The document `new CommunityPost({...})` builds before it is saved:
      no flair, no likes, not deleted, `Body` only when the request had a
      non-empty one, and the uploaded image names. */
  function NewPost(club: ClubId, author: MemberId, uri: string, kind: PostType, title: string,
                   body: string, images: seq<string>, now: int): (p: CommunityPost)
    ensures p.club == club && p.author == author && p.postUri == uri && p.kind == kind && p.title == title
    ensures p.body.Some? <==> body != ""
    ensures p.body.Some? ==> p.body.value == body
    ensures p.images == images && p.likedBy == [] && !p.isDeleted && p.flair.None?
    ensures p.createdAt == now && p.updatedAt == now
  {
    CommunityPost(club, author, uri, kind, now, now, None, title, if body != "" then Some(body) else None,
                  images, [], false)
  }

  /** The schema's validators accept the request: `Type` is one of the enum
      strings and the required `Title` is non-empty. */
  predicate Validates(kind: string, title: string) {
    ParseType(kind).Some? && title != ""
  }

  /** `CreatePost`. The slug's uniqueness is not checked beforehand: a
      collision (or a taken `_id`) surfaces as the index rejecting the insert.
      Neither club membership nor the club's existence is checked. */
  function CreatePost(s: Store, newId: PostId, memberId: MemberId, clubId: ClubId, kind: string,
                      title: string, body: string, images: seq<string>, fraction: string, now: nat)
    : (r: Step<string>)
    ensures !Validates(kind, title) ==> r == Step(s, Err(ValidationFailed))
    ensures Validates(kind, title) && (MakeSlug(title, StampText(now, fraction)) in s.postUris || newId in s.posts) ==>
              r == Step(s, Err(DuplicateKey))
    ensures r.reply.Ok? <==> Validates(kind, title) && MakeSlug(title, StampText(now, fraction)) !in s.postUris && newId !in s.posts
    ensures r.reply.Ok? ==>
      var uri := MakeSlug(title, StampText(now, fraction));
      && r.reply.value == uri
      && r.store.(posts := s.posts, postUris := s.postUris) == s
      && r.store.posts == s.posts[newId := NewPost(clubId, memberId, uri, ParseType(kind).value, title, body, images, now)]
      && r.store.postUris == s.postUris[uri := newId]
    ensures Valid(s) ==> Valid(r.store)
  {
    if !Validates(kind, title) then Step(s, Err(ValidationFailed))
    else
      var uri := MakeSlug(title, StampText(now, fraction));
      if uri in s.postUris || newId in s.posts then Step(s, Err(DuplicateKey))
      else
        var p := NewPost(clubId, memberId, uri, ParseType(kind).value, title, body, images, now);
        assert Valid(s) ==> Valid(s.(posts := s.posts[newId := p], postUris := s.postUris[uri := newId])) by {
          if Valid(s) { InsertPostKeepsValid(s, newId, p); }
        }
        Step(s.(posts := s.posts[newId := p], postUris := s.postUris[uri := newId]), Ok(uri))
  }

  /** PostURI is unique: in a consistent store, creating a post whose slug
      some stored post already has is rejected by the index. */
  lemma DuplicateSlugRejected(s: Store, existing: PostId, newId: PostId, memberId: MemberId, clubId: ClubId,
                              kind: string, title: string, body: string, images: seq<string>, fraction: string, now: nat)
    requires Valid(s) && Validates(kind, title)
    requires existing in s.posts && s.posts[existing].postUri == MakeSlug(title, StampText(now, fraction))
    ensures CreatePost(s, newId, memberId, clubId, kind, title, body, images, fraction, now) == Step(s, Err(DuplicateKey))
  {
  }

  /** Because the suffix is cut from the clock alone, a second post with the
      same title that arrives in the same 36 ms window (equal `now / 36`) is
      rejected by the index, whatever `Math.random()` returned either time. */
  lemma SameWindowCollides(s: Store, id1: PostId, id2: PostId, memberId: MemberId, clubId: ClubId,
                           kind: string, title: string, body: string, images: seq<string>,
                           f1: string, f2: string, now1: nat, now2: nat)
    requires Valid(s) && Validates(kind, title) && id1 !in s.posts
    requires Pow36(7) <= now1 < Pow36(8) && Pow36(7) <= now2 < Pow36(8) && now1 / 36 == now2 / 36
    requires MakeSlug(title, StampText(now1, f1)) !in s.postUris
    ensures var first := CreatePost(s, id1, memberId, clubId, kind, title, body, images, f1, now1).store;
            CreatePost(first, id2, memberId, clubId, kind, title, body, images, f2, now2) == Step(first, Err(DuplicateKey))
  {
    SuffixIgnoresFraction(now1, f1);
    SuffixIgnoresFraction(now2, f2);
    assert MakeSlug(title, StampText(now1, f1)) == MakeSlug(title, StampText(now2, f2));
  }

  /** In a consistent store no two posts share a PostURI; every handler
      keeps the store consistent. */
  lemma ValidMeansUniqueUris(s: Store, a: PostId, b: PostId)
    requires Valid(s) && a in s.posts && b in s.posts && a != b
    ensures s.posts[a].postUri != s.posts[b].postUri
  {
  }
}

=== FILE: slug.dfy ===
/** Slug construction for new posts: `SanitizeString` (trim, whitespace runs to
    `_`, drop everything but `[A-Za-z0-9_-]`, underscore runs to one `_`)
    followed by `-` and a suffix of at most seven characters cut from the base-36 text
    of `Date.now() + Math.random()`. For every clock reading between 1972 and
    2059 that suffix is made of integer digits of the clock alone. */
module Slug {
  import opened Common

  /** JavaScript's `\s` class, which is also the set `String.prototype.trim`
      removes: the WhiteSpace and LineTerminator code points. */
  predicate IsSpace(c: char) {
    || c == '\t' || c == '\n' || c == '\U{000B}' || c == '\U{000C}' || c == '\r' || c == ' '
    || c == '\U{00A0}' || c == '\U{1680}' || ('\U{2000}' <= c <= '\U{200A}')
    || c == '\U{2028}' || c == '\U{2029}' || c == '\U{202F}' || c == '\U{205F}'
    || c == '\U{3000}' || c == '\U{FEFF}'
  }

  predicate IsAsciiAlnum(c: char) {
    ('a' <= c <= 'z') || ('A' <= c <= 'Z') || ('0' <= c <= '9')
  }

  /** JavaScript's `\w` without the `u` flag: ASCII letters, digits and `_`. */
  predicate IsWordChar(c: char) {
    IsAsciiAlnum(c) || c == '_'
  }

  /** The characters `[^\w\-]` does not remove. */
  predicate IsSlugChar(c: char) {
    IsWordChar(c) || c == '-'
  }

  predicate IsUnderscore(c: char) {
    c == '_'
  }

  predicate NoSpace(s: string) {
    forall i :: 0 <= i < |s| ==> !IsSpace(s[i])
  }

  /** No two consecutive underscores. */
  predicate NoDoubleUnderscore(s: string) {
    forall i :: 0 <= i < |s| - 1 ==> !(s[i] == '_' && s[i + 1] == '_')
  }

  function TrimStart(s: string): (r: string)
    ensures |r| <= |s| && r == s[|s| - |r|..]
    ensures |r| > 0 ==> !IsSpace(r[0])
  {
    if |s| > 0 && IsSpace(s[0]) then TrimStart(s[1..]) else s
  }

  function TrimEnd(s: string): (r: string)
    ensures |r| <= |s| && r == s[..|r|]
    ensures |r| > 0 ==> !IsSpace(r[|r| - 1])
  {
    if |s| > 0 && IsSpace(s[|s| - 1]) then TrimEnd(s[..|s| - 1]) else s
  }

  /** `str.trim()`. */
  function Trim(s: string): (r: string)
    ensures |r| > 0 ==> !IsSpace(r[0]) && !IsSpace(r[|r| - 1])
    ensures NoSpace(s) ==> r == s
  {
    var t := TrimStart(s);
    assert |t| > 0 ==> t[0] == s[|s| - |t|];
    var r := TrimEnd(t);
    assert |r| > 0 ==> r[0] == t[0];
    r
  }

  /** `s.replace(/P+/g, c)`: every maximal run of characters satisfying `p`
      becomes the single character `c`; other characters are kept. */
  function ReplaceRuns(s: string, p: char -> bool, c: char): (r: string)
    ensures forall i :: 0 <= i < |r| ==> r[i] == c || (!p(r[i]) && r[i] in s)
    ensures |s| > 0 && !p(s[0]) ==> |r| > 0 && r[0] == s[0]
    ensures |s| > 0 && p(s[0]) ==> |r| > 0 && r[0] == c
    ensures p(c) ==> forall i :: 0 <= i < |r| - 1 ==> !(p(r[i]) && p(r[i + 1]))
  {
    if |s| == 0 then []
    else if p(s[0]) && |s| > 1 && p(s[1]) then ReplaceRuns(s[1..], p, c)
    else
      var rest := ReplaceRuns(s[1..], p, c);
      assert forall i :: 0 <= i < |rest| ==> rest[i] == c || rest[i] in s;
      [if p(s[0]) then c else s[0]] + rest
  }

  /** `s.replace(/[^K]/g, '')`: keeps exactly the characters satisfying `keep`, in order. */
  function Keep(s: string, keep: char -> bool): (r: string)
    ensures |r| <= |s|
    ensures forall i :: 0 <= i < |r| ==> keep(r[i])
  {
    if |s| == 0 then []
    else
      var rest := Keep(s[1..], keep);
      assert forall i :: 1 <= i < |s| ==> s[i] == s[1..][i - 1];
      if keep(s[0]) then [s[0]] + rest else rest
  }

  /** The characters `SanitizeString` never alters: ASCII letters, digits
      and `-`. Whitespace and underscores may become or merge into `_`;
      everything else is dropped. */
  predicate Survives(c: char) {
    IsAsciiAlnum(c) || c == '-'
  }

  /** `Keep` invents no character and drops no character that satisfies `keep`. */
  lemma {:induction false} KeepMembers(s: string, keep: char -> bool)
    ensures forall i :: 0 <= i < |Keep(s, keep)| ==> Keep(s, keep)[i] in s
    ensures forall i :: 0 <= i < |s| && keep(s[i]) ==> s[i] in Keep(s, keep)
  {
    if |s| > 0 {
      KeepMembers(s[1..], keep);
      assert forall i :: 1 <= i < |s| ==> s[i] == s[1..][i - 1];
    }
  }

  /** `SanitizeString`. */
  function Sanitize(s: string): (r: string)
    ensures forall i :: 0 <= i < |r| ==> IsSlugChar(r[i])
    ensures NoSpace(r)
    ensures NoDoubleUnderscore(r)
    ensures Keep(r, Survives) == Keep(s, Survives)
  {
    var kept := Keep(ReplaceRuns(Trim(s), IsSpace, '_'), IsSlugChar);
    SanitizeKeepsSurvivors(s);
    UnderscoreRunsKeepSlugChars(kept);
    SlugCharsHaveNoSpace(ReplaceRuns(kept, IsUnderscore, '_'));
    ReplaceRuns(kept, IsUnderscore, '_')
  }

  /** Filtering distributes over concatenation. */
  lemma {:induction false} KeepAppend(a: string, b: string, keep: char -> bool)
    ensures Keep(a + b, keep) == Keep(a, keep) + Keep(b, keep)
  {
    if |a| == 0 {
      assert a + b == b;
    } else {
      assert (a + b)[0] == a[0];
      assert (a + b)[1..] == a[1..] + b;
      KeepAppend(a[1..], b, keep);
    }
  }

  lemma {:induction false} TrimStartKeepsSurvivors(s: string)
    ensures Keep(TrimStart(s), Survives) == Keep(s, Survives)
  {
    if |s| > 0 && IsSpace(s[0]) {
      SpacesDoNotSurvive();
      assert Keep(s, Survives) == Keep(s[1..], Survives);
      TrimStartKeepsSurvivors(s[1..]);
    }
  }

  lemma {:induction false} TrimEndKeepsSurvivors(s: string)
    ensures Keep(TrimEnd(s), Survives) == Keep(s, Survives)
  {
    if |s| > 0 && IsSpace(s[|s| - 1]) {
      var init := s[..|s| - 1];
      SpacesDoNotSurvive();
      TrimEndKeepsSurvivors(init);
      assert s == init + [s[|s| - 1]];
      KeepAppend(init, [s[|s| - 1]], Survives);
    }
  }

  /** Replacing runs of non-surviving characters by a non-surviving
      character leaves the surviving characters as they were. */
  lemma {:induction false} ReplaceRunsKeepsSurvivors(s: string, p: char -> bool, c: char)
    requires !Survives(c)
    requires forall ch :: p(ch) ==> !Survives(ch)
    ensures Keep(ReplaceRuns(s, p, c), Survives) == Keep(s, Survives)
  {
    if |s| > 0 {
      ReplaceRunsKeepsSurvivors(s[1..], p, c);
      if !(p(s[0]) && |s| > 1 && p(s[1])) {
        var head: string := [if p(s[0]) then c else s[0]];
        assert ReplaceRuns(s, p, c) == head + ReplaceRuns(s[1..], p, c);
        KeepAppend(head, ReplaceRuns(s[1..], p, c), Survives);
      }
    }
  }

  /** Dropping non-slug characters drops no surviving character. */
  lemma {:induction false} SlugFilterKeepsSurvivors(s: string)
    ensures Keep(Keep(s, IsSlugChar), Survives) == Keep(s, Survives)
  {
    if |s| > 0 {
      SlugFilterKeepsSurvivors(s[1..]);
      if IsSlugChar(s[0]) {
        KeepAppend([s[0]], Keep(s[1..], IsSlugChar), Survives);
      }
    }
  }

  /** No whitespace character survives sanitizing unchanged. */
  lemma SpacesDoNotSurvive()
    ensures forall ch :: IsSpace(ch) ==> !Survives(ch)
  {
  }

  /** Every step of `SanitizeString` preserves the letters, digits and
      hyphens of the title, in order. */
  lemma SanitizeKeepsSurvivors(s: string)
    ensures Keep(ReplaceRuns(Keep(ReplaceRuns(Trim(s), IsSpace, '_'), IsSlugChar), IsUnderscore, '_'), Survives)
            == Keep(s, Survives)
  {
    var trimmed := Trim(s);
    assert trimmed == TrimEnd(TrimStart(s));
    TrimStartKeepsSurvivors(s);
    TrimEndKeepsSurvivors(TrimStart(s));
    SpacesDoNotSurvive();
    var spaced := ReplaceRuns(trimmed, IsSpace, '_');
    ReplaceRunsKeepsSurvivors(trimmed, IsSpace, '_');
    var kept := Keep(spaced, IsSlugChar);
    SlugFilterKeepsSurvivors(spaced);
    ReplaceRunsKeepsSurvivors(kept, IsUnderscore, '_');
  }

  /** `ReplaceRuns` copies a prefix that has no `p`-character. */
  lemma {:induction false} ReplaceRunsCopiesPrefix(a: string, rest: string, p: char -> bool, c: char)
    requires forall i :: 0 <= i < |a| ==> !p(a[i])
    ensures ReplaceRuns(a + rest, p, c) == a + ReplaceRuns(rest, p, c)
  {
    if |a| == 0 {
      assert a + rest == rest;
    } else {
      assert (a + rest)[0] == a[0];
      assert (a + rest)[1..] == a[1..] + rest;
      assert ReplaceRuns(a + rest, p, c) == [a[0]] + ReplaceRuns(a[1..] + rest, p, c);
      ReplaceRunsCopiesPrefix(a[1..], rest, p, c);
      assert a == [a[0]] + a[1..];
    }
  }

  /** A run of `p`-characters in front of a non-`p` character becomes one `c`. */
  lemma {:induction false} ReplaceRunsCollapsesRun(w: string, rest: string, p: char -> bool, c: char)
    requires |w| > 0 && forall i :: 0 <= i < |w| ==> p(w[i])
    requires |rest| > 0 && !p(rest[0])
    ensures ReplaceRuns(w + rest, p, c) == [c] + ReplaceRuns(rest, p, c)
  {
    assert (w + rest)[0] == w[0];
    assert (w + rest)[1..] == w[1..] + rest;
    if |w| > 1 {
      ReplaceRunsCollapsesRun(w[1..], rest, p, c);
    } else {
      assert w[1..] + rest == rest;
    }
  }

  /** Trimming and replacing whitespace runs turn `a + w + b` into `a_b`. */
  lemma SpacesBecomeOneUnderscore(a: string, w: string, b: string)
    requires |a| > 0 && forall i :: 0 <= i < |a| ==> Survives(a[i])
    requires |w| > 0 && forall i :: 0 <= i < |w| ==> IsSpace(w[i])
    requires |b| > 0 && forall i :: 0 <= i < |b| ==> Survives(b[i])
    ensures ReplaceRuns(Trim(a + w + b), IsSpace, '_') == a + "_" + b
  {
    var s := a + w + b;
    SpacesDoNotSurvive();
    assert s[0] == a[0] && s[|s| - 1] == b[|b| - 1];
    assert TrimStart(s) == s;
    assert TrimEnd(s) == s;
    assert s == a + (w + b);
    ReplaceRunsCopiesPrefix(a, w + b, IsSpace, '_');
    ReplaceRunsCollapsesRun(w, b, IsSpace, '_');
    ReplaceRunsCopiesPrefix(b, [], IsSpace, '_');
    assert b + [] == b;
  }

  lemma SurvivorIsPlain(c: char)
    requires Survives(c)
    ensures IsSlugChar(c) && !IsUnderscore(c)
  {
  }

  /** `a_b` with underscore-free words passes the last two steps unchanged. */
  /** `a_b` with underscore-free words is a clean slug. */
  lemma JoinedWordsAreClean(a: string, b: string)
    requires forall i :: 0 <= i < |a| ==> Survives(a[i])
    requires forall i :: 0 <= i < |b| ==> Survives(b[i])
    ensures forall i :: 0 <= i < |a + "_" + b| ==> IsSlugChar((a + "_" + b)[i])
    ensures NoDoubleUnderscore(a + "_" + b)
  {
    var joined := a + "_" + b;
    forall i | 0 <= i < |joined|
      ensures IsSlugChar(joined[i])
      ensures i != |a| ==> joined[i] != '_'
    {
      if i < |a| {
        assert joined[i] == a[i];
        SurvivorIsPlain(a[i]);
      } else if i > |a| {
        assert joined[i] == b[i - |a| - 1];
        SurvivorIsPlain(b[i - |a| - 1]);
      }
    }
  }

  /** A clean slug passes the last two steps of `SanitizeString` unchanged. */
  lemma CleanIsFixed(t: string)
    requires forall i :: 0 <= i < |t| ==> IsSlugChar(t[i])
    requires NoDoubleUnderscore(t)
    ensures ReplaceRuns(Keep(t, IsSlugChar), IsUnderscore, '_') == t
  {
    KeepIdentity(t, IsSlugChar);
    ReplaceRunsIdentity(t, IsUnderscore, '_');
  }

  /** Two words separated by whitespace come out joined by a single `_`:
      `"ab \t cd"` becomes `"ab_cd"`. */
  lemma SanitizeJoinsWords(a: string, w: string, b: string)
    requires |a| > 0 && forall i :: 0 <= i < |a| ==> Survives(a[i])
    requires |w| > 0 && forall i :: 0 <= i < |w| ==> IsSpace(w[i])
    requires |b| > 0 && forall i :: 0 <= i < |b| ==> Survives(b[i])
    ensures Sanitize(a + w + b) == a + "_" + b
  {
    SpacesBecomeOneUnderscore(a, w, b);
    JoinedWordsAreClean(a, b);
    CleanIsFixed(a + "_" + b);
  }

  /** Collapsing underscore runs introduces no character outside the slug alphabet. */
  lemma UnderscoreRunsKeepSlugChars(s: string)
    requires forall i :: 0 <= i < |s| ==> IsSlugChar(s[i])
    ensures forall i :: 0 <= i < |ReplaceRuns(s, IsUnderscore, '_')| ==> IsSlugChar(ReplaceRuns(s, IsUnderscore, '_')[i])
  {
    var r := ReplaceRuns(s, IsUnderscore, '_');
    forall i | 0 <= i < |r| ensures IsSlugChar(r[i]) {
      if r[i] != '_' {
        assert r[i] in s;
      }
    }
  }

  /** `ReplaceRuns` is the identity on a string whose `p`-characters are all
      `c` and never adjacent. */
  lemma {:induction false} ReplaceRunsIdentity(s: string, p: char -> bool, c: char)
    requires forall i :: 0 <= i < |s| && p(s[i]) ==> s[i] == c
    requires forall i :: 0 <= i < |s| - 1 ==> !(p(s[i]) && p(s[i + 1]))
    ensures ReplaceRuns(s, p, c) == s
  {
    if |s| > 0 {
      ReplaceRunsIdentity(s[1..], p, c);
      assert s == [s[0]] + s[1..];
    }
  }

  lemma {:induction false} KeepIdentity(s: string, keep: char -> bool)
    requires forall i :: 0 <= i < |s| ==> keep(s[i])
    ensures Keep(s, keep) == s
  {
    if |s| > 0 {
      KeepIdentity(s[1..], keep);
      assert s == [s[0]] + s[1..];
    }
  }

  /** Sanitizing is idempotent: a sanitized string is its own sanitization. */
  lemma SanitizeIdempotent(s: string)
    ensures Sanitize(Sanitize(s)) == Sanitize(s)
  {
    var t := Sanitize(s);
    assert Trim(t) == t;
    ReplaceRunsIdentity(t, IsSpace, '_');
    KeepIdentity(t, IsSlugChar);
    ReplaceRunsIdentity(t, IsUnderscore, '_');
  }

  /** A whitespace prefix is skipped by `TrimStart`. */
  lemma {:induction false} TrimStartSkips(w: string, s: string)
    requires forall i :: 0 <= i < |w| ==> IsSpace(w[i])
    ensures TrimStart(w + s) == TrimStart(s)
  {
    if |w| == 0 {
      assert w + s == s;
    } else {
      assert (w + s)[0] == w[0];
      assert (w + s)[1..] == w[1..] + s;
      TrimStartSkips(w[1..], s);
    }
  }

  /** A whitespace suffix is skipped by `TrimEnd`. */
  lemma {:induction false} TrimEndSkips(s: string, w: string)
    requires forall i :: 0 <= i < |w| ==> IsSpace(w[i])
    ensures TrimEnd(s + w) == TrimEnd(s)
  {
    if |w| == 0 {
      assert s + w == s;
    } else {
      var sw := s + w;
      assert sw[|sw| - 1] == w[|w| - 1];
      assert sw[..|sw| - 1] == s + w[..|w| - 1];
      TrimEndSkips(s, w[..|w| - 1]);
    }
  }

  /** `TrimStart` looks no further than the first non-space character. */
  lemma {:induction false} TrimStartAppend(x: string, w: string)
    ensures TrimStart(x) != [] ==> TrimStart(x + w) == TrimStart(x) + w
    ensures TrimStart(x) == [] ==> TrimStart(x + w) == TrimStart(w)
  {
    if |x| == 0 {
      assert x + w == w;
    } else {
      assert (x + w)[0] == x[0];
      assert (x + w)[1..] == x[1..] + w;
      if IsSpace(x[0]) {
        TrimStartAppend(x[1..], w);
      }
    }
  }

  /** `trim()` comes first: whitespace around the title changes nothing,
      `" ab "` sanitizes as `"ab"` does. */
  lemma SanitizeTrims(w1: string, s: string, w2: string)
    requires forall i :: 0 <= i < |w1| ==> IsSpace(w1[i])
    requires forall i :: 0 <= i < |w2| ==> IsSpace(w2[i])
    ensures Sanitize(w1 + s + w2) == Sanitize(s)
  {
    assert w1 + s + w2 == w1 + (s + w2);
    TrimStartSkips(w1, s + w2);
    TrimStartAppend(s, w2);
    if TrimStart(s) != [] {
      TrimEndSkips(TrimStart(s), w2);
    } else {
      TrimStartSkips(w2, []);
      assert w2 + [] == w2;
    }
    assert Trim(w1 + s + w2) == Trim(s);
  }

  /** Text `SanitizeString` could have produced: only `[A-Za-z0-9_-]` and
      no two consecutive `_`. */
  predicate IsCleanSlug(t: string) {
    (forall i :: 0 <= i < |t| ==> IsSlugChar(t[i])) && NoDoubleUnderscore(t)
  }

  /** Text that is already a clean slug passes through unchanged. */
  lemma SanitizeFixesClean(t: string)
    requires IsCleanSlug(t)
    ensures Sanitize(t) == t
  {
    SlugCharsHaveNoSpace(t);
    assert Trim(t) == t;
    ReplaceRunsIdentity(t, IsSpace, '_');
    CleanIsFixed(t);
  }

  /** The suffix cut from the stamp text:
      `.replace(/[^a-z0-9]/gi, '').substring(0, 7)`. */
  function Suffix(raw: string): (r: string)
    ensures |r| <= 7
    ensures forall i :: 0 <= i < |r| ==> IsAsciiAlnum(r[i])
  {
    var kept := Keep(raw, IsAsciiAlnum);
    if |kept| <= 7 then kept else kept[..7]
  }

  function Pow36(k: nat): (r: nat)
    ensures r >= 1
  {
    if k == 0 then 1 else 36 * Pow36(k - 1)
  }

  /** The digits `Number.prototype.toString(36)` writes: `0`-`9`, then
      lower-case `a`-`z`. */
  predicate IsBase36Digit(c: char) {
    ('0' <= c <= '9') || ('a' <= c <= 'z')
  }

  predicate IsBase36(s: string) {
    forall i :: 0 <= i < |s| ==> IsBase36Digit(s[i])
  }

  /** The value a base-36 digit stands for, read back from the character. */
  function DigitValue(c: char): (v: nat)
    requires IsBase36Digit(c)
    ensures v < 36
    ensures (v < 10) == ('0' <= c <= '9')
  {
    if c <= '9' then c as int - 48 else c as int - 87
  }

  /** The number a base-36 numeral denotes, most significant digit first. */
  function Value36(s: string): (v: nat)
    requires IsBase36(s)
  {
    if |s| == 0 then 0 else Value36(s[..|s| - 1]) * 36 + DigitValue(s[|s| - 1])
  }

  /** A base-36 digit as `Number.prototype.toString(36)` writes it. */
  function Digit36(d: nat): (c: char)
    requires d < 36
    ensures IsBase36Digit(c) && IsAsciiAlnum(c)
    ensures DigitValue(c) == d
  {
    if d < 10 then (48 + d) as char else (87 + d) as char
  }

  /** `n.toString(36)` for a non-negative integer: lower-case digits, most
      significant first, with a leading `0` only for zero itself. */
  function Base36(n: nat): (r: string)
    ensures |r| >= 1
    ensures IsBase36(r)
    ensures forall i :: 0 <= i < |r| ==> IsAsciiAlnum(r[i])
    ensures r[0] == '0' <==> n == 0
  {
    if n < 36 then [Digit36(n)] else Base36(n / 36) + [Digit36(n % 36)]
  }

  /** Reading the numeral back gives the number: `Base36` writes `n` and
      nothing else. */
  lemma {:induction false} Base36Value(n: nat)
    ensures Value36(Base36(n)) == n
  {
    var r := Base36(n);
    if n >= 36 {
      Base36Value(n / 36);
      assert r[..|r| - 1] == Base36(n / 36);
    }
  }

  /** A number in `[36^k, 36^(k+1))` has exactly `k + 1` base-36 digits. */
  lemma {:induction false} Base36Length(n: nat, k: nat)
    requires Pow36(k) <= n < Pow36(k + 1)
    ensures |Base36(n)| == k + 1
  {
    if k > 0 {
      assert Pow36(k) == 36 * Pow36(k - 1);
      assert Pow36(k + 1) == 36 * Pow36(k);
      assert Pow36(k - 1) <= n / 36 < Pow36(k);
      Base36Length(n / 36, k - 1);
    } else {
      assert n < 36;
    }
  }

  /** `(Date.now() + Math.random()).toString(36)`: the base-36 digits of the
      integer part `whole`, then a `.` and the fraction's digits unless the
      fraction is zero. */
  function StampText(whole: nat, fraction: string): string {
    Base36(whole) + (if fraction == "" then "" else "." + fraction)
  }

  /** The random part never reaches the suffix: while the clock has eight
      base-36 digits (36^7 ms is in 1972, 36^8 ms in 2059) the suffix is the
      first seven of them, i.e. the clock reading divided by 36. Two posts
      whose titles sanitize alike get the same slug when they are created in
      the same 36 ms window (equal `whole / 36`). */
  lemma SuffixIgnoresFraction(whole: nat, fraction: string)
    requires Pow36(7) <= whole < Pow36(8)
    ensures Suffix(StampText(whole, fraction)) == Base36(whole / 36)
    ensures Value36(Suffix(StampText(whole, fraction))) == whole / 36
  {
    var digits := Base36(whole);
    var rest := if fraction == "" then "" else "." + fraction;
    Base36Length(whole, 7);
    KeepAppend(digits, rest, IsAsciiAlnum);
    KeepIdentity(digits, IsAsciiAlnum);
    var kept := Keep(StampText(whole, fraction), IsAsciiAlnum);
    assert kept[..8] == digits;
    assert kept[..7] == digits[..7];
    assert digits == Base36(whole / 36) + [Digit36(whole % 36)];
    assert digits[..7] == Base36(whole / 36);
    Base36Value(whole / 36);
  }

  /** Strings made of slug characters are closed under concatenation. */
  lemma SlugCharsConcat(a: string, b: string)
    requires forall i :: 0 <= i < |a| ==> IsSlugChar(a[i])
    requires forall i :: 0 <= i < |b| ==> IsSlugChar(b[i])
    ensures forall i :: 0 <= i < |a + b| ==> IsSlugChar((a + b)[i])
  {
    forall i | 0 <= i < |a + b|
      ensures IsSlugChar((a + b)[i])
    {
      if i >= |a| {
        assert (a + b)[i] == b[i - |a|];
      }
    }
  }

  /** No slug character is whitespace. */
  lemma SlugCharsHaveNoSpace(s: string)
    requires forall i :: 0 <= i < |s| ==> IsSlugChar(s[i])
    ensures NoSpace(s)
  {
  }

  /** The PostURI `CreatePost` builds: `${SanitizeString(title)}-${suffix}`. */
  function MakeSlug(title: string, raw: string): (r: string)
    ensures forall i :: 0 <= i < |r| ==> IsSlugChar(r[i])
    ensures NoSpace(r)
  {
    var a, b := Sanitize(title), Suffix(raw);
    SlugCharsConcat(a, "-");
    SlugCharsConcat(a + "-", b);
    SlugCharsHaveNoSpace(a + "-" + b);
    a + "-" + b
  }

  /** Position of the last `-` in `s`, if any. */
  function LastHyphen(s: string): (r: Option<nat>)
    ensures r.Some? ==> r.value < |s| && s[r.value] == '-' && forall j :: r.value < j < |s| ==> s[j] != '-'
    ensures r.None? ==> forall j :: 0 <= j < |s| ==> s[j] != '-'
  {
    if |s| == 0 then None
    else if s[|s| - 1] == '-' then Some(|s| - 1)
    else LastHyphen(s[..|s| - 1])
  }

  /** Splits a slug at its last `-` into the sanitized title and the suffix. */
  function SplitSlug(slug: string): Option<(string, string)> {
    match LastHyphen(slug)
    case None => None
    case Some(k) => Some((slug[..k], slug[k + 1..]))
  }

  /** A slug determines both of its parts: the suffix never contains `-`, so
      the last `-` is the separator `CreatePost` inserted. */
  lemma SlugRoundTrip(title: string, raw: string)
    ensures SplitSlug(MakeSlug(title, raw)) == Some((Sanitize(title), Suffix(raw)))
  {
    var head, tail := Sanitize(title), Suffix(raw);
    var slug := MakeSlug(title, raw);
    var k := |head|;
    assert slug[k] == '-';
    assert forall j :: k < j < |slug| ==> slug[j] == tail[j - k - 1];
    LastHyphenIsUnique(slug, k);
    assert slug[..k] == head;
    assert slug[k + 1..] == tail;
  }

  lemma LastHyphenIsUnique(s: string, k: nat)
    requires k < |s| && s[k] == '-' && forall j :: k < j < |s| ==> s[j] != '-'
    ensures LastHyphen(s) == Some(k)
  {
  }

  /** Equal slugs come from equal sanitized titles and equal suffixes, so two
      posts with the same title get distinct slugs exactly when their
      suffixes differ. */
  lemma SlugInjective(t1: string, raw1: string, t2: string, raw2: string)
    requires MakeSlug(t1, raw1) == MakeSlug(t2, raw2)
    ensures Sanitize(t1) == Sanitize(t2) && Suffix(raw1) == Suffix(raw2)
  {
    SlugRoundTrip(t1, raw1);
    SlugRoundTrip(t2, raw2);
  }
}
